=== FILE: README.md ===
# TantechEngine tile-map loading and entity allocation, in Dafny

This project models two parts of the TantechEngine sources.

**The tile-map document code of `src/TantechEngine/tmx.cpp`:**
- `initTMX` turns the table tree that the Tiled Lua exporter produces into a `TMX` document. That document holds a map header, tilesets with their terrain types and tiles, and layers with their data and placed objects.
- The four enumeration decoders.
- The `#RRGGBB` transparent-colour decode.
- `TMX::Meta(pathfile)`, which splits a path into its directory and its file name.
- `getTilesetIndex`, which finds the tileset that owns a global tile id.
- `loadObjects`, which walks the layers and makes one entity per placed object. It hands each entity to the transform, animation and data stores.

**The generation-indexed entity allocator of `VisualPractice/entity_manager.h`:**
- An `Entity` is an (index, generation) handle.
- The `EntityManager` keeps one record per index, a queue of free indices and an allocation size.

Modules:

- `Wrappers`: `Option` and `Result`, used in place of the C++ exceptions. It also holds `MapAll`, the `push_back` loop that stops at the first element whose conversion throws.
- `TmxTypes`: the document's records. `unsigned` fields are `U32Value` (0 to 2^32 - 1).
- `TmxEnums`, `TmxColor`, `TmxMeta`: the decoders, the colour decode and the path splitter.
- `LuaTree`: the already-parsed key/value tree that `initTMX` reads through LuaBridge references. It covers the two kinds of 1..n list loop and the scalar conversions.
- `TmxDecode`: the field rules of `initTMX`, one decoder per record.
- `TilesetResolver`: `getTilesetIndex`, whose upper bound wraps modulo 2^32.
- `SceneBuilder`: `loadObjects` as nested loops over the entity manager. The component stores are a recorder of the calls they receive.
- `Entities`: `Entity` and `EntityManager`.

A failed `loadObjects` is not rolled back. It keeps every entity it created and every store call it made before the failing lookup. That includes the entity of the failing object itself, because `create` runs before the lookup. `SceneBuilder.LoadObjects` states exactly this partial state.

`VisualPractice/entity_manager.cpp` is not modelled, so the allocator's behaviour below is a modelling choice made on the header's state:
- The header declares no liveness flag, so a slot is taken to be dead exactly when its index waits in `mAvailableIndices`.
- `destroy` is taken to bump the slot's generation, so the next `create` on that index hands out the new generation. Bumping on reuse instead would give the same handles to callers.
- The header only declares `Entity`'s `==`, `!=` and `<`. `==` is taken to compare both fields and `!=` to be its negation. `<` is taken to order by index first and then by generation.

## Model

| member | source | states |
|---|---|---|
| TmxEnums.ShapeOf | src/TantechEngine/tmx.cpp:18-29 | succeeds exactly on "rectangle"; every other string gives the unsupported-shape error |
| TmxEnums.LayerTypeOf | src/TantechEngine/tmx.cpp:31-43 | "tilelayer" gives the tile layer, "objectgroup" the object group; every other string is refused with the unsupported-layer-type error |
| TmxEnums.OrientationOf | src/TantechEngine/tmx.cpp:45-56 | succeeds exactly on "orthogonal"; otherwise the unsupported-orientation error |
| TmxEnums.RenderOrderOf | src/TantechEngine/tmx.cpp:58-69 | succeeds exactly on "right-down"; otherwise the unsupported-render-order error |
| TmxEnums.DecodersInvertNames | src/TantechEngine/tmx.cpp:18-69 | decoding each enumerator's document spelling gives that enumerator back |
| TmxColor.DecodeColorString | src/TantechEngine/tmx.cpp:101-108 | succeeds exactly on a seven-character string whose last six characters are hex digits; the first character is skipped unread; r, g and b are the three digit pairs, and the colour is in use; anything else is the malformed-colour error |
| TmxColor.ChannelsOfSixDigits | src/TantechEngine/tmx.cpp:103-106 | the mask-and-shift bytes of the six-digit value (bits 16-23, 8-15, 0-7) are its first, second and third digit pairs |
| TmxColor.SixDigitValue | src/TantechEngine/tmx.cpp:103 | the hexadecimal value of six digits is pair1 * 2^16 + pair2 * 2^8 + pair3 |
| TmxColor.EncodeColor | src/TantechEngine/tmx.cpp:101-102 | the "#rrggbb" spelling of any three bytes is a well-formed colour string |
| TmxColor.ColorRoundTrip | src/TantechEngine/tmx.cpp:98-109 | decoding the spelling of any three bytes gives those bytes back, in use |
| TmxColor.FirstCharacterIgnored | src/TantechEngine/tmx.cpp:102 | replacing the first character of a seven-character colour string changes nothing in the decode |
| LuaTree.Field | src/TantechEngine/tmx.cpp:93-96 | indexing a table by name gives the stored value, or nil when the key is missing; indexing a non-table is refused; the typed reads GetInt, GetU32 and GetString go through it, while reads that follow a table check use Get directly |
| LuaTree.Item | src/TantechEngine/tmx.cpp:94-95 | `ref[i]` gives entry i of the array part, nil past its end; refused on a non-table |
| LuaTree.ReadList | src/TantechEngine/tmx.cpp:94 | the unchecked loop reads entries 1..n: exactly the leading entries, none nil, with entry n+1 nil; it fails exactly when the list is not a table |
| LuaTree.ReadOptionalList | src/TantechEngine/tmx.cpp:215 | the guarded loop gives the empty list for an absent list, and otherwise the unchecked loop's result |
| LuaTree.NonNilPrefixIsRun | src/TantechEngine/tmx.cpp:131 | what the loop collects is a prefix of the entries, none of them nil, followed by nil or the end |
| LuaTree.RunIsNonNilPrefix | src/TantechEngine/tmx.cpp:145 | conversely, any run of non-nil entries followed by nil or the end is what the loop collects |
| LuaTree.CollectList | src/TantechEngine/tmx.cpp:165-184 | the counting loop that appends `ref[1]`, `ref[2]`, ... until the first nil computes ReadList |
| LuaTree.AsInt | src/TantechEngine/tmx.cpp:85-89 | an integer field converts exactly when it holds a number |
| LuaTree.AsU32 | src/TantechEngine/tmx.cpp:179 | `cast<unsigned>` converts exactly the numbers, and leaves a number already in 0..2^32-1 unchanged |
| LuaTree.AsBool | src/TantechEngine/tmx.cpp:180 | a field converts to false exactly when it is nil or false |
| LuaTree.AsString | src/TantechEngine/tmx.cpp:156 | a string field converts exactly when it holds a string |
| Wrappers.MapAll | src/TantechEngine/tmx.cpp:165-184 | the list converts exactly when every element converts; on success, element k of the result is the conversion of input k; on failure, the error is that of the first input whose conversion fails, and all inputs before it converted |
| TmxDecode.DecodeObject | src/TantechEngine/tmx.cpp:278-291 | an object decodes exactly when id, x, y, width, height and rotation are numbers, name and type are strings, the shape is "rectangle" and a present gid is a number; id, name, type, x, y, width, height and rotation are the document's, visible is the field's truth value, an absent gid reads as 0 and a present one as its unsigned cast |
| TmxDecode.DecodeFrame | src/TantechEngine/tmx.cpp:218-221 | a frame decodes exactly when tileid and duration are numbers, and it holds those two numbers |
| TmxDecode.DecodeTerrain | src/TantechEngine/tmx.cpp:134-137 | a terrain type decodes exactly when its name is a string and its tile a number, and it holds those two values |
| TmxDecode.DecodeProperties | src/TantechEngine/tmx.cpp:197-210 | the properties decode exactly when they are absent, or a table with no non-nil integer key whose values are all strings; absent properties give the empty map; otherwise the map has the table's keys and each key's string value |
| TmxDecode.NilEntriesAreNoEntries | src/TantechEngine/tmx.cpp:201-207 | nil entries under integer keys are not seen by the key/value iteration: the table decodes as it does without them |
| TmxDecode.DecodeObjectGroup | src/TantechEngine/tmx.cpp:148-187 | a group decodes exactly when it is absent, or a table whose name, opacity, offsets and objects list read when its type is "objectgroup"; an absent group is NONE; a group is OBJECTGROUP exactly when its type is "objectgroup", and then its name, visibility, opacity and offsets are the document's and its objects are the decoded entries 1..n of its unchecked objects list; any other present group is the value-initialised group with no objects |
| TmxDecode.DecodeTile | src/TantechEngine/tmx.cpp:146-235 | a tile decodes exactly when it is a table whose object group and properties decode, whose id is a number and whose present animation and terrain lists convert entry by entry; the id is the document's; the object group and the properties are their decoders' results; a present animation or terrain list is the decoded entries 1..n of that list; absent ones read as empty, and an absent object group reads as NONE |
| TmxDecode.DecodeTransparentColor | src/TantechEngine/tmx.cpp:98-109 | an absent colour is {0,0,0,false}; a present string is the colour-string decode, and in use; any other present value is refused |
| TmxDecode.DecodeTileset | src/TantechEngine/tmx.cpp:95-239 | a tileset decodes exactly when its colour decodes, every scalar field has its type and its terrains and tiles lists are present and convert entry by entry; the image path is the document directory, "/", and the image name; name, firstgid, tile sizes, spacing, margin, image sizes, tile offset and tilecount are the document's; the transparent colour is DecodeTransparentColor of the field; terrains and tiles are the decoded entries 1..n of their lists |
| TmxDecode.DecodeLayer | src/TantechEngine/tmx.cpp:247-297 | a layer decodes exactly when its type is "tilelayer" or "objectgroup", a tile layer's grid fields are numbers, name, opacity and offsets have their types and its present data and objects convert entry by entry; any other type is refused with the layer-type error; object groups have x = y = width = height = 0, and tile layers copy those fields; name, visible, opacity and offsets are the document's; absent data and objects read as empty; present ones are the decoded entries 1..n of their lists |
| TmxDecode.ObjectGroupIgnoresGrid | src/TantechEngine/tmx.cpp:254-257 | changing an object-group layer's x, y, width and height in the document leaves the decoded layer unchanged |
| TmxDecode.DecodeTilesets | src/TantechEngine/tmx.cpp:93-240 | the list decodes exactly when it is a table whose entries 1..n all decode as tilesets; an absent list is refused, since the loop indexes it unchecked; tileset k is the decoded entry k + 1; every image lies under the document directory |
| TmxDecode.TilesetImagesUnderPath | src/TantechEngine/tmx.cpp:118 | every tileset read from the document has its image path under the document directory followed by "/" |
| TmxDecode.DecodeLayers | src/TantechEngine/tmx.cpp:245-298 | the layers decode exactly when the list is absent or a table whose entries 1..n all decode as layers; an absent list gives no layers; a present one gives the decoded entries 1..n; every object-group layer has a zero grid |
| TmxDecode.DecodedDocumentShape | src/TantechEngine/tmx.cpp:81-300 | every accepted document has only object-group layers with a zero grid and only tileset images under its directory, and an absent layers list gives no layers |
| TmxDecode.DecodeTmx | src/TantechEngine/tmx.cpp:81-300 | every readable document decodes: orthogonal and right-down, numeric width, height, tile sizes and nextobjectid, and decodable tilesets and layers; a decoded document keeps its meta, width, height, tile sizes and nextobjectid; its tilesets and layers are those DecodeTilesets and DecodeLayers read from the document; an absent tilesets list is refused |
| TmxDecode.DecodeTmxExactly | src/TantechEngine/tmx.cpp:81-300 | initTMX succeeds exactly on the readable documents: both directions of the success condition |
| TmxMeta.FindLastSeparator | src/TantechEngine/tmx.cpp:311 | find_last_of gives the position of a separator with none after it, or npos when the string has none |
| TmxMeta.Substr | src/TantechEngine/tmx.cpp:311-315 | `substr(pos, count)` gives the min(count, length - pos) characters from pos on |
| TmxMeta.MetaOf | src/TantechEngine/tmx.cpp:307-321 | the split refuses only with BadFilename; an accepted file is non-empty and no longer than the input; the path is "./" or shorter than the input minus the file |
| TmxMeta.Slashed | src/TantechEngine/tmx.cpp:318-320 | the rewritten path has the input's length |
| TmxMeta.MetaFileRule | src/TantechEngine/tmx.cpp:311-314 | the split fails with BadFilename exactly when the input is empty or ends with a separator; otherwise the file is a non-empty, separator-free suffix that is the whole input or follows a separator |
| TmxMeta.LastSeparatorIsFound | src/TantechEngine/tmx.cpp:311 | a separator with no separator after it is the one find_last_of finds |
| TmxMeta.MetaWithoutSeparator | src/TantechEngine/tmx.cpp:311-317 | with no separator, npos + 1 wraps to 0: the whole input is the file, the path equals it, and the path becomes "./" |
| TmxMeta.MetaPathRule | src/TantechEngine/tmx.cpp:315-320 | the file is what follows the last separator; the path is "./" when the text before that separator equals the file, and otherwise that text with each backslash made a slash |
| TmxMeta.MetaPathHasNoBackslash | src/TantechEngine/tmx.cpp:316-320 | a successful split's path never holds a backslash |
| TmxMeta.MetaNestedExample | src/TantechEngine/tmx.cpp:307-321 | "a/b/c.tmx" and "a\\b\\c.tmx" both split into "a/b" and "c.tmx" |
| TmxMeta.MetaBareExample | src/TantechEngine/tmx.cpp:307-321 | "c.tmx" splits into "./" and "c.tmx" |
| TmxMeta.MetaDirectoryExample | src/TantechEngine/tmx.cpp:312-314 | "a/b/" is refused with BadFilename |
| TmxMeta.MetaSameNameExample | src/TantechEngine/tmx.cpp:316-317 | "x/x" splits into "./" and "x", because the path equals the file |
| TmxMeta.ReplaceBackslashes | src/TantechEngine/tmx.cpp:318-320 | rewriting the buffer in place leaves it equal to the input with every backslash made a slash |
| TmxMeta.NewMeta | src/TantechEngine/tmx.cpp:307-321 | the constructor computes the split that MetaOf defines, on which the lemmas above are proved |
| TilesetResolver.LastExclusive | src/TantechEngine/tmx.cpp:349 | `firstgid + tilecount` as an unsigned: the plain sum below 2^32, the sum minus 2^32 otherwise |
| TilesetResolver.FindTileset | src/TantechEngine/tmx.cpp:345-356 | a found index is a valid index into the tilesets; a failure is out_of_range |
| TilesetResolver.FindFromIsFirstOwner | src/TantechEngine/tmx.cpp:347-355 | the scan from i returns the first tileset at or after i that owns gid, and fails exactly when none from i on does |
| TilesetResolver.FindTilesetIsFirstOwner | src/TantechEngine/tmx.cpp:345-356 | the lookup returns the smallest index whose range holds gid, and fails exactly when no range holds it |
| TilesetResolver.FirstOwnerIsFound | src/TantechEngine/tmx.cpp:351-352 | a tileset that owns gid, with no owner before it, is the one returned |
| TilesetResolver.GetTilesetIndex | src/TantechEngine/tmx.cpp:345-356 | the loop with its early return computes FindTileset |
| TilesetResolver.OwnsWithoutWrap | src/TantechEngine/tmx.cpp:348-351 | when the sum does not wrap, ownership is membership in [firstgid, firstgid + tilecount) |
| TilesetResolver.WrappedRangeOwnsNothing | src/TantechEngine/tmx.cpp:349-351 | when `firstgid + tilecount` wraps past 2^32, the tileset owns no gid at all |
| TilesetResolver.DisjointRangesGiveTheOwner | src/TantechEngine/tmx.cpp:345-356 | with pairwise disjoint ranges, the lookup returns the one tileset that owns gid, whatever the order |
| TilesetResolver.ThreeTilesetsExample | src/TantechEngine/tmx.cpp:345-356 | with ranges [1,10), [10,15) and [15,100), the gids 9, 10 and 99 resolve to 0, 1 and 2, and the gids 100 and 0 to out_of_range |
| SceneBuilder.Recorder.constructor | src/TantechEngine/tmx.cpp:358-365 | the stores start with no call recorded |
| SceneBuilder.Recorder.Record | src/TantechEngine/tmx.cpp:379-395 | a store call is appended to the recorded calls |
| SceneBuilder.LayerPlacements | src/TantechEngine/tmx.cpp:373-375 | a tile layer contributes no object; an object group contributes one placement per object |
| SceneBuilder.PlacementsPrefix | src/TantechEngine/tmx.cpp:370-375 | the objects of the first k layers come first, in order, among those of the first n layers |
| SceneBuilder.PlacementAt | src/TantechEngine/tmx.cpp:372-376 | object j of object-group layer k is visited right after the objects of the earlier layers and the first j of layer k, at depth k mod 2^32 |
| SceneBuilder.PlacementOrigin | src/TantechEngine/tmx.cpp:372-376 | every visited object belongs to an object-group layer and carries that layer's depth |
| SceneBuilder.DepthCountsEveryLayer | src/TantechEngine/tmx.cpp:369-373 | tile layers count toward the depth: in tile, group(a,b), tile, group(c), the objects sit at depths 1, 1 and 3 |
| SceneBuilder.ObjectCalls | src/TantechEngine/tmx.cpp:378-396 | an object whose tileset lookup throws produces no store call |
| SceneBuilder.NoDataCallsWithoutStore | src/TantechEngine/tmx.cpp:393-396 | without a data store, the walk makes only transform and animation calls |
| SceneBuilder.TraversalCallsSize | src/TantechEngine/tmx.cpp:379-396 | when every lookup succeeds, each object costs 4 calls with a data store and 2 without |
| SceneBuilder.TraversalCallsAppend | src/TantechEngine/tmx.cpp:370-399 | the calls of two walks, one after the other, are the first walk's calls followed by the second's |
| SceneBuilder.ObjectCallsAt | src/TantechEngine/tmx.cpp:375-397 | each object owns a contiguous run of the calls, between those of the objects before it and those after it |
| SceneBuilder.ObjectCallsStart | src/TantechEngine/tmx.cpp:375-397 | when every lookup succeeds, object i's calls start at position CallsPerObject * i |
| SceneBuilder.ObjectCallsFound | src/TantechEngine/tmx.cpp:379-396 | a found object's calls are its transform (entity, depth, tileset, object), its animation (gid), then, with a store, its id and its name |
| SceneBuilder.AllFoundAppend | src/TantechEngine/tmx.cpp:378 | every lookup of a concatenation succeeds exactly when every lookup of both parts does |
| SceneBuilder.LoadObject | src/TantechEngine/tmx.cpp:376-396 | the entity is created before the lookup, so it exists and is new even when the lookup throws; found is true exactly when a tileset owns the gid; the log grows by that object's calls |
| SceneBuilder.VisitObject | src/TantechEngine/tmx.cpp:375-397 | one step of the inner walk extends its log and its handle accounts by one object and its entity |
| SceneBuilder.ObjectVisited | src/TantechEngine/tmx.cpp:375-397 | one more visited object appends its calls to the log, its fresh entity to the live and issued handles, and its lookup to the found-so-far record |
| SceneBuilder.LoadLayer | src/TantechEngine/tmx.cpp:371-399 | the counter becomes k mod 2^32; a tile layer does nothing else; an object group creates one fresh entity per object visited; the walk stops exactly at the first object whose lookup throws |
| SceneBuilder.LoadGroup | src/TantechEngine/tmx.cpp:375-398 | the objects are visited in order, each getting a fresh entity and its calls; either all of them are found, or the walk stops at the first unfound one, which still has its entity |
| SceneBuilder.NextDepth | src/TantechEngine/tmx.cpp:369-372 | a counter starting at -1 as an unsigned and incremented before each layer holds k mod 2^32 at layer k |
| SceneBuilder.LayerCompleted | src/TantechEngine/tmx.cpp:370-400 | a layer visited in full after the earlier layers extends the completed prefix by its objects and their calls |
| SceneBuilder.LayerStopped | src/TantechEngine/tmx.cpp:378 | a walk that stopped inside layer k stopped at that layer's object, and every object before it in the whole walk was found |
| SceneBuilder.LayerStoppedLog | src/TantechEngine/tmx.cpp:370-400 | the log of a walk that stopped inside layer k holds the calls of exactly the objects visited |
| SceneBuilder.EveryLayerDone | src/TantechEngine/tmx.cpp:370-400 | after the last layer, every object of the document was visited, found and logged, one entity each |
| SceneBuilder.VisitLayer | src/TantechEngine/tmx.cpp:370-400 | one step of the outer walk: either the layer is completed, or the walk stops at an object no tileset owns; the counter advances |
| SceneBuilder.LoadObjects | src/TantechEngine/tmx.cpp:358-400 | on success, one fresh entity per object in layer-then-object order, with every object's calls logged; on failure, out_of_range at the first object whose gid no tileset owns, and that object's entity still exists; entities and calls made before the failure stay; live and issued handles grow by exactly the created entities |
| Entities.EqualIsIdentity | VisualPractice/entity_manager.h:13-14 | `==` holds exactly for equal (index, generation) pairs, and `!=` is its negation |
| Entities.LessIsStrictTotalOrder | VisualPractice/entity_manager.h:12 | `<` is irreflexive, transitive, asymmetric and total on distinct handles |
| Entities.Equal | VisualPractice/entity_manager.h:13 | `==` holds exactly when both fields agree |
| Entities.NotEqual | VisualPractice/entity_manager.h:14 | `!=` holds exactly when the handles differ |
| Entities.Less | VisualPractice/entity_manager.h:12 | `<`, as the chosen index-then-generation order: a smaller index is always less, and a less handle is different and has no larger index |
| Entities.InitialSlots | VisualPractice/entity_manager.h:24 | a new manager's table has `size` records, record i being (i, 0) |
| Entities.InitialQueue | VisualPractice/entity_manager.h:24 | a new manager's free queue is 0, 1, ..., size - 1 |
| Entities.LiveSlotsMembers | VisualPractice/entity_manager.h:32-33 | a handle is live exactly when its index is in range, it has its slot's generation, and its index is not waiting in the free queue |
| Entities.IssuedSlotsMembers | VisualPractice/entity_manager.h:32-33 | a handle has been issued exactly when its generation is below its slot's, or equal to it while the slot is live |
| Entities.ReuseSlot | VisualPractice/entity_manager.h:25-33 | taking the front of the free queue makes that slot's handle live and issued, and that handle was never issued before |
| Entities.AppendSlot | VisualPractice/entity_manager.h:25-32 | appending a generation-0 slot makes its handle live and issued, and that handle was never issued before |
| Entities.RetireSlot | VisualPractice/entity_manager.h:27-33 | bumping a live slot's generation and queueing its index removes exactly that handle from the live ones and leaves the issued ones unchanged |
| Entities.EntityManager.IsAlive | VisualPractice/entity_manager.h:26 | a const query; a live handle's index is in range and its generation is the slot's |
| Entities.EntityManager.LiveMembers | VisualPractice/entity_manager.h:26 | the live set holds exactly the handles isAlive accepts |
| Entities.EntityManager.IssuedMembers | VisualPractice/entity_manager.h:25-27 | the issued handles are exactly each slot's earlier generations, plus its current one while it is alive |
| Entities.EntityManager.constructor | VisualPractice/entity_manager.h:24 | `size` dead slots at generation 0 are queued in index order; nothing is alive and nothing has been issued |
| Entities.EntityManager.Create | VisualPractice/entity_manager.h:25 | the handle returned is alive and was never issued before; it is the front of the free queue when there is one, and otherwise a new slot (table size, 0); no other handle changes liveness |
| Entities.EntityManager.Destroy | VisualPractice/entity_manager.h:27 | afterwards the handle is dead; a live handle's slot moves to the next generation and its index joins the back of the queue; a dead handle changes nothing; no other handle changes liveness |
| Entities.LiveHandleWasIssued | VisualPractice/entity_manager.h:25-26 | a live handle is its slot's record and was issued by create |
| Entities.DeadHandleIsPast | VisualPractice/entity_manager.h:17-27 | an issued handle that is dead lies behind its slot's generation, so it can never be alive again |
| Entities.NewDefaultManager | VisualPractice/entity_manager.h:24-34 | the default constructor uses allocation size 1024 |
| Entities.Reissue | VisualPractice/entity_manager.h:25-27 | create, destroy, create on a full table reuses the index under a different generation; the new handle is alive and the old one is not |

## Left out

- Loading the map through Lua is not modelled: `getTMXRef`, `luaL_dofile`, and the two `TMX` constructors that own a `lua_State` (src/TantechEngine/tmx.cpp:71-79, 323-343). It is a foreign runtime plus file I/O. `initTMX` is modelled over an already-parsed value tree (`LuaTree.Value`).
- LuaBridge's own conversions are stood in by the `LuaTree` rules. Converting a non-number to a number, or a non-string to a string, is refused with one `ScriptError`. Indexing a non-table is refused the same way.
- TmxDecode.DecodeProperties: a properties table with a non-nil entry under an integer key is refused. LuaBridge would convert that key, and a numeric value, to their decimal spelling. The model refuses both under the conversion rule above.
- LuaTree.AsInt: numbers in the value tree (`LuaTree.Value.Num`) are integers. A Lua number can be fractional, such as an opacity of 0.5 or a fractional object position. LuaBridge truncates such a number toward zero and narrows it to a 32-bit `int` when it initialises an `int` field. Neither the truncation nor the narrowing is modelled.
- TmxTypes.GroupKind: the C++ object-group type has two enumerators, NONE and OBJECTGROUP. A present group whose type is not "objectgroup" keeps the value-initialised type, which is whichever enumerator has the value 0. tmx.h is not part of this model, so that enumerator is unknown here. The model keeps this case as a third kind, `ValueInitialised`, which the program cannot hold; it has the value-initialised fields and no objects.
- `initTMX` is modelled as functions that build each list at once (`Wrappers.MapAll`, `LuaTree.ReadList`). Only the 1..n counting loop is a method (`LuaTree.CollectList`). The order of the pushes and the first failure match the code.
- The floating-point transform of `loadObjects` is not computed (src/TantechEngine/tmx.cpp:379-384). The transform store receives the entity, the depth, the tileset index and the object instead.
- `AnimationFactory` and the transform, animation and data stores are not part of this model. They are a recorder of calls (`SceneBuilder.Recorder`), and the animation is identified by the object's gid.
- TmxColor.DecodeColorString: `std::stoul` accepts strings that are not exactly six hex digits after the first character, such as a short string, trailing junk, a leading sign or space, or a value wider than 24 bits. The model refuses them all with `MalformedColor`. An empty string, on which the code's `begin() + 1` is undefined, is refused too.
- TmxMeta.NewMeta requires the input to be shorter than npos, which no real `std::string` reaches.
- Entities.EntityManager.Create: index and generation are unbounded (`nat`), so the 32-bit wrap of `unsigned` after 2^32 reuses of a slot is not modelled.
- Entities.EntityManager.Destroy: the generation bump is unbounded, for the same reason.
- `VisualPractice/entity_manager.cpp` is not part of this model. The operations are modelled on the header's state as follows:
  - the constructor pre-creates `size` dead slots;
  - create pops the front of the queue or appends a generation-0 slot;
  - destroy bumps the generation and queues the index;
  - `==`, `!=` and `<` on `Entity` follow the choices stated above, since their bodies are in that file.
- Entities.EntityManager.Create: `mAllocationSize` is kept but plays no part in growth. The table grows by one slot when the queue is empty, since the growth policy is in `entity_manager.cpp`, which is not modelled.
- `Entities.EntityManager.Issued` is derived from the slot state. It is not a separately stored history. Create and Destroy show that it changes exactly as a history would.
- SceneBuilder.LoadObjects: after an exception the `layerIndex` counter is a local that the caller never sees. The model does not state its value then.
- The component-store abstraction, bounding boxes and rendering are not modelled. They are float geometry and OpenGL resources, in src/TantechEngine/bounding_box_component.h and src/TantechEngine/simple_render_component.h.

=== FILE: entity_manager.dfy ===
/** The generation-indexed entity allocator of VisualPractice/entity_manager.h:
    an Entity handle is an (index, generation) pair, and the EntityManager
    keeps one record per index (mEntities), a queue of free indices
    (mAvailableIndices) and an allocation size (mAllocationSize). */
module Entities {

  /** Entity: identity is the pair (index, generation). */
  datatype Entity = Entity(index: nat, generation: nat)

  /** Entity::operator== : both fields match. */
  predicate Equal(a: Entity, b: Entity)
    ensures Equal(a, b) <==> a == b
  {
    a.index == b.index && a.generation == b.generation
  }

  /** Entity::operator!= */
  predicate NotEqual(a: Entity, b: Entity)
    ensures NotEqual(a, b) <==> a != b
  {
    !Equal(a, b)
  }

  /** Entity::operator< : lexicographic by index, then by generation. */
  predicate Less(a: Entity, b: Entity)
    ensures Less(a, b) ==> a != b && a.index <= b.index
    ensures a.index < b.index ==> Less(a, b)
  {
    a.index < b.index || (a.index == b.index && a.generation < b.generation)
  }

  lemma EqualIsIdentity(a: Entity, b: Entity)
    ensures Equal(a, b) <==> a == b
    ensures NotEqual(a, b) <==> !Equal(a, b)
  {
  }

  lemma LessIsStrictTotalOrder(a: Entity, b: Entity, c: Entity)
    ensures !Less(a, a)
    ensures Less(a, b) && Less(b, c) ==> Less(a, c)
    ensures Less(a, b) ==> !Less(b, a)
    ensures a != b ==> Less(a, b) || Less(b, a)
  {
  }

  /** Default argument of EntityManager(unsigned size = 1024). */
  const DefaultAllocationSize: nat := 1024

  /** The slot table a freshly constructed manager holds: `size` records,
      record i with index i and generation 0. */
  function InitialSlots(size: nat): (s: seq<Entity>)
    ensures |s| == size
    ensures forall i :: 0 <= i < size ==> s[i] == Entity(i, 0)
  {
    seq(size, i requires 0 <= i < size => Entity(i, 0))
  }

  /** The free queue of a freshly constructed manager: 0, 1, ..., size-1. */
  function InitialQueue(size: nat): (q: seq<nat>)
    ensures |q| == size
    ensures forall i :: 0 <= i < size ==> q[i] == i
  {
    seq(size, i requires 0 <= i < size => i)
  }

  /** The live handles among the first n slots: a slot not waiting in the
      free queue holds one, at its current generation. */
  function LiveSlots(slots: seq<Entity>, free: seq<nat>, n: nat): set<Entity>
    requires n <= |slots|
  {
    if n == 0 then {}
    else LiveSlots(slots, free, n - 1) + (if n - 1 in free then {} else {Entity(n - 1, slots[n - 1].generation)})
  }

  /** The handles of slot i below generation bound. */
  function Generations(i: nat, bound: nat): set<Entity> {
    if bound == 0 then {} else Generations(i, bound - 1) + {Entity(i, bound - 1)}
  }

  /** The handles the first n slots have handed out: every generation below
      the current one, and the current one too while the slot is alive. */
  function IssuedSlots(slots: seq<Entity>, free: seq<nat>, n: nat): set<Entity>
    requires n <= |slots|
  {
    if n == 0 then {}
    else
      var bound := if n - 1 in free then slots[n - 1].generation else slots[n - 1].generation + 1;
      IssuedSlots(slots, free, n - 1) + Generations(n - 1, bound)
  }

  lemma {:induction false} LiveSlotsMembers(slots: seq<Entity>, free: seq<nat>, n: nat)
    requires n <= |slots|
    ensures forall e :: e in LiveSlots(slots, free, n) <==>
      e.index < n && e.generation == slots[e.index].generation && e.index !in free
  {
    if n > 0 {
      LiveSlotsMembers(slots, free, n - 1);
      var last := if n - 1 in free then {} else {Entity(n - 1, slots[n - 1].generation)};
      assert LiveSlots(slots, free, n) == LiveSlots(slots, free, n - 1) + last;
      forall e
        ensures e in LiveSlots(slots, free, n) <==>
          e.index < n && e.generation == slots[e.index].generation && e.index !in free
      {
        if e.index == n - 1 {
          assert e !in LiveSlots(slots, free, n - 1);
        }
      }
    }
  }

  lemma {:induction false} GenerationsMembers(i: nat, bound: nat)
    ensures forall e :: e in Generations(i, bound) <==> e.index == i && e.generation < bound
  {
    if bound > 0 {
      GenerationsMembers(i, bound - 1);
    }
  }

  lemma {:induction false} IssuedSlotsMembers(slots: seq<Entity>, free: seq<nat>, n: nat)
    requires n <= |slots|
    ensures forall e :: e in IssuedSlots(slots, free, n) <==>
      && e.index < n
      && (e.generation < slots[e.index].generation
          || (e.generation == slots[e.index].generation && e.index !in free))
  {
    if n > 0 {
      IssuedSlotsMembers(slots, free, n - 1);
      var bound := if n - 1 in free then slots[n - 1].generation else slots[n - 1].generation + 1;
      GenerationsMembers(n - 1, bound);
      assert IssuedSlots(slots, free, n) == IssuedSlots(slots, free, n - 1) + Generations(n - 1, bound);
      forall e
        ensures e in IssuedSlots(slots, free, n) <==>
          && e.index < n
          && (e.generation < slots[e.index].generation
              || (e.generation == slots[e.index].generation && e.index !in free))
      {
        if e.index == n - 1 {
          assert e !in IssuedSlots(slots, free, n - 1);
        }
      }
    }
  }

  /** Create taking the slot at the front of the free queue: the slot's
      handle becomes live and issued, and it had not been issued before. */
  lemma ReuseSlot(slots: seq<Entity>, free: seq<nat>)
    requires free != [] && free[0] < |slots| && slots[free[0]].index == free[0]
    requires free[0] !in free[1..]
    ensures var e, n := slots[free[0]], |slots|;
      && LiveSlots(slots, free[1..], n) == LiveSlots(slots, free, n) + {e}
      && e !in IssuedSlots(slots, free, n)
      && IssuedSlots(slots, free[1..], n) == IssuedSlots(slots, free, n) + {e}
  {
    var n := |slots|;
    LiveSlotsMembers(slots, free, n);
    LiveSlotsMembers(slots, free[1..], n);
    IssuedSlotsMembers(slots, free, n);
    IssuedSlotsMembers(slots, free[1..], n);
  }

  /** Slots past the first n play no part in the handles of the first n. */
  lemma {:induction false} SlotsPrefix(slots: seq<Entity>, more: seq<Entity>, free: seq<nat>, n: nat)
    requires n <= |slots|
    ensures LiveSlots(slots + more, free, n) == LiveSlots(slots, free, n)
    ensures IssuedSlots(slots + more, free, n) == IssuedSlots(slots, free, n)
  {
    if n > 0 {
      SlotsPrefix(slots, more, free, n - 1);
      assert (slots + more)[n - 1] == slots[n - 1];
    }
  }

  /** Create appending a slot at generation 0 to a manager with no free
      slot: the new handle becomes live and issued, and it had not been
      issued before. */
  lemma AppendSlot(slots: seq<Entity>)
    ensures var e, n := Entity(|slots|, 0), |slots|;
      && LiveSlots(slots + [e], [], n + 1) == LiveSlots(slots, [], n) + {e}
      && e !in IssuedSlots(slots, [], n)
      && IssuedSlots(slots + [e], [], n + 1) == IssuedSlots(slots, [], n) + {e}
  {
    var e, n := Entity(|slots|, 0), |slots|;
    SlotsPrefix(slots, [e], [], n);
    assert Generations(n, 1) == {e};
    IssuedSlotsMembers(slots, [], n);
  }

  /** Destroy of the live handle of slot i, seen in the first n slots: the
      slot moves to the next generation and joins the back of the free
      queue; the handle leaves the live ones and the issued handles stay as
      they were. */
  lemma {:induction false} RetireSlot(slots: seq<Entity>, free: seq<nat>, i: nat, n: nat)
    requires i < |slots| && slots[i].index == i && i !in free && n <= |slots|
    ensures var e := slots[i];
      var slots' := slots[i := Entity(i, e.generation + 1)];
      && LiveSlots(slots', free + [i], n) == LiveSlots(slots, free, n) - {e}
      && IssuedSlots(slots', free + [i], n) == IssuedSlots(slots, free, n)
  {
    if n > 0 {
      RetireSlot(slots, free, i, n - 1);
      assert n - 1 in free + [i] <==> n - 1 in free || n - 1 == i;
      if n - 1 == i {
        LiveSlotsMembers(slots, free, n - 1);
      }
    }
  }

  class EntityManager {
    /** mEntities: record i holds index i and the slot's current generation. */
    var entities: seq<Entity>
    /** mAvailableIndices, front at position 0: the slots that are dead. */
    var availableIndices: seq<nat>
    /** mAllocationSize */
    var allocationSize: nat
    ghost predicate Valid()
      reads this
    {
      && (forall i :: 0 <= i < |entities| ==> entities[i].index == i)
      && (forall k :: 0 <= k < |availableIndices| ==> availableIndices[k] < |entities|)
      && (forall k, l :: 0 <= k < l < |availableIndices| ==> availableIndices[k] != availableIndices[l])
    }

    /** EntityManager::isAlive: the index is in range, the slot is not waiting
        in the free queue and its generation is the handle's.  A const query:
        it reads the manager and changes nothing. */
    predicate IsAlive(e: Entity)
      reads this
      ensures IsAlive(e) ==> e.index < |entities| && entities[e.index].generation == e.generation
    {
      e.index < |entities| && entities[e.index].generation == e.generation && e.index !in availableIndices
    }

    /** The handles alive now: one per slot not waiting in the free queue,
        at the slot's current generation. */
    function Live(): set<Entity>
      reads this
    {
      LiveSlots(entities, availableIndices, |entities|)
    }

    /** The handles create has returned so far: a slot has handed out every
        generation below its current one, and its current one too while it is
        alive.  Create and Destroy below show that this is the history: Create
        adds exactly the handle it returns, Destroy adds nothing. */
    function Issued(): set<Entity>
      reads this
    {
      IssuedSlots(entities, availableIndices, |entities|)
    }

    /** Live() holds exactly the handles IsAlive accepts. */
    lemma LiveMembers()
      ensures forall e :: e in Live() <==> IsAlive(e)
    {
      LiveSlotsMembers(entities, availableIndices, |entities|);
    }

    /** Issued() holds exactly the generations each slot has handed out. */
    lemma IssuedMembers()
      ensures forall e :: e in Issued() <==>
        e.index < |entities| && (e.generation < entities[e.index].generation || IsAlive(e))
    {
      IssuedSlotsMembers(entities, availableIndices, |entities|);
    }

    /** EntityManager(unsigned size): `size` dead slots at generation 0, all of
        them queued as free in index order. */
    constructor (size: nat)
      ensures Valid()
      ensures entities == InitialSlots(size) && availableIndices == InitialQueue(size)
      ensures allocationSize == size && Issued() == {}
      ensures forall e :: !IsAlive(e)
    {
      var slots: seq<Entity> := [];
      var queue: seq<nat> := [];
      var i := 0;
      while i < size
        invariant 0 <= i <= size
        invariant |slots| == i && |queue| == i
        invariant forall j :: 0 <= j < i ==> slots[j] == Entity(j, 0) && queue[j] == j
      {
        slots := slots + [Entity(i, 0)];
        queue := queue + [i];
        i := i + 1;
      }
      entities := slots;
      availableIndices := queue;
      allocationSize := size;
      new;
      assert forall i :: 0 <= i < |entities| ==> availableIndices[i] == i;
      LiveMembers();
      IssuedMembers();
    }

    /** EntityManager::create: reuse the index at the front of the free queue,
        or append a fresh slot at generation 0 when the queue is empty.  The
        handle returned is alive and has never been issued before, so a reused
        index comes back under a different generation; no other handle changes
        liveness. */
    method Create() returns (e: Entity)
      requires Valid()
      modifies this
      ensures Valid()
      ensures IsAlive(e) && e !in old(Issued()) && Issued() == old(Issued()) + {e}
      ensures Live() == old(Live()) + {e}
      ensures forall x :: x != e ==> (IsAlive(x) <==> old(IsAlive(x)))
      ensures old(availableIndices) != [] ==>
        && e == old(entities)[old(availableIndices)[0]]
        && entities == old(entities)
        && availableIndices == old(availableIndices)[1..]
      ensures old(availableIndices) == [] ==>
        && e == Entity(old(|entities|), 0)
        && entities == old(entities) + [e]
        && availableIndices == []
      ensures allocationSize == old(allocationSize)
    {
      if availableIndices == [] {
        e := Entity(|entities|, 0);
        AppendSlot(entities);
        entities := entities + [e];
      } else {
        var i := availableIndices[0];
        assert forall k :: 1 <= k < |availableIndices| ==> availableIndices[k] != i;
        ReuseSlot(entities, availableIndices);
        availableIndices := availableIndices[1..];
        e := entities[i];
      }
    }

    /** EntityManager::destroy: a live handle's slot moves to the next
        generation and its index joins the back of the free queue; destroying
        a handle that is not alive changes nothing.  Afterwards the handle is
        dead, and no other handle changes liveness. */
    method Destroy(e: Entity)
      requires Valid()
      modifies this
      ensures Valid()
      ensures !IsAlive(e) && Issued() == old(Issued())
      ensures Live() == old(Live()) - {e}
      ensures forall x :: x != e ==> (IsAlive(x) <==> old(IsAlive(x)))
      ensures old(IsAlive(e)) ==>
        && entities == old(entities)[e.index := Entity(e.index, e.generation + 1)]
        && availableIndices == old(availableIndices) + [e.index]
      ensures !old(IsAlive(e)) ==> entities == old(entities) && availableIndices == old(availableIndices)
      ensures allocationSize == old(allocationSize)
    {
      if IsAlive(e) {
        RetireSlot(entities, availableIndices, e.index, |entities|);
        entities := entities[e.index := Entity(e.index, e.generation + 1)];
        availableIndices := availableIndices + [e.index];
      } else {
        LiveMembers();
      }
    }
  }

  /** In a valid manager a live handle is the record of its slot and was
      issued by Create. */
  lemma LiveHandleWasIssued(m: EntityManager, e: Entity)
    requires m.Valid() && m.IsAlive(e)
    ensures m.entities[e.index] == e && e in m.Issued()
  {
    m.IssuedMembers();
  }

  /** A handle that was issued and is dead lies behind its slot's current
      generation: the slot can only come alive again under a later one. */
  lemma DeadHandleIsPast(m: EntityManager, d: Entity)
    requires m.Valid() && d in m.Issued() && !m.IsAlive(d)
    ensures d.index < |m.entities| && d.generation < m.entities[d.index].generation
  {
    m.IssuedMembers();
  }

  /** EntityManager() with its default argument: allocation size 1024. */
  method NewDefaultManager() returns (m: EntityManager)
    ensures fresh(m) && m.Valid()
    ensures m.allocationSize == DefaultAllocationSize == 1024
    ensures |m.entities| == 1024 && m.Issued() == {}
  {
    m := new EntityManager(DefaultAllocationSize);
  }

  /** A client's view of one handle's lifetime: a handle is alive after
      create, dead after destroy, and stays dead when its index is reissued,
      which happens under a different generation. */
  method Reissue(m: EntityManager) returns (first: Entity, second: Entity)
    requires m.Valid() && m.availableIndices == []
    modifies m
    ensures m.Valid()
    ensures first.index == second.index && first.generation != second.generation
    ensures m.IsAlive(second) && !m.IsAlive(first)
  {
    first := m.Create();
    m.Destroy(first);
    second := m.Create();
  }
}

=== FILE: lua_tree.dfy ===
/** The already-parsed key/value tree that initTMX in src/TantechEngine/tmx.cpp
    walks through the scripting runtime's references.  A table has a part
    keyed by strings and an array part: items[k] is the value stored under the
    integer key k + 1 (possibly nil); every integer key past the end is nil. */
module LuaTree {
  import opened Wrappers
  import opened TmxTypes

  datatype Value =
    | Nil
    | Bool(b: bool)
    | Num(n: int)
    | Str(s: string)
    | Table(fields: map<string, Value>, items: seq<Value>)

  /** The value under a string key; a missing key, or a value that is not a
      table, gives nil. */
  function Get(v: Value, name: string): Value {
    if v.Table? && name in v.fields then v.fields[name] else Nil
  }

  /** ref["name"]: a missing key reads as nil; indexing a non-table is refused. */
  function Field(v: Value, name: string): (r: Result<Value, TmxError>)
    ensures r.Ok? <==> v.Table?
    ensures r.Ok? ==> r.value == Get(v, name)
  {
    if v.Table? then Ok(Get(v, name)) else Err(ScriptError)
  }

  /** ref[i] for i >= 1. */
  function Item(v: Value, i: nat): (r: Result<Value, TmxError>)
    requires 1 <= i
    ensures r.Ok? <==> v.Table?
    ensures r.Ok? ==> r.value == (if i <= |v.items| then v.items[i - 1] else Nil)
  {
    match v
    case Table(_, items) => Ok(if i <= |items| then items[i - 1] else Nil)
    case _ => Err(ScriptError)
  }

  /** The entries under keys 1, 2, ... up to, not including, the first nil. */
  function NonNilPrefix(s: seq<Value>): seq<Value> {
    if s == [] || s[0] == Nil then [] else [s[0]] + NonNilPrefix(s[1..])
  }

  /** `for (int i = 1; !ref[i].isNil(); ++i)`: the loop of the tileset,
      terrain-type, tile and tile-object lists, which indexes `ref` without
      checking it first. */
  function ReadList(v: Value): (r: Result<seq<Value>, TmxError>)
    ensures r.Ok? <==> v.Table?
    ensures r.Ok? ==> |r.value| <= |v.items| && r.value == v.items[..|r.value|]
    ensures r.Ok? ==> forall k :: 0 <= k < |r.value| ==> r.value[k] != Nil
    ensures r.Ok? ==> Item(v, |r.value| + 1) == Ok(Nil)
  {
    if v.Table? then NonNilPrefixIsRun(v.items); Ok(NonNilPrefix(v.items)) else Err(ScriptError)
  }

  /** `for (int i = 1; !ref.isNil() && !ref[i].isNil(); ++i)`: the loop of the
      animation, terrain, data, layer and layer-object lists, where an absent
      list reads as empty. */
  function ReadOptionalList(v: Value): (r: Result<seq<Value>, TmxError>)
    ensures v == Nil ==> r == Ok([])
    ensures v != Nil ==> r == ReadList(v)
  {
    if v == Nil then Ok([]) else ReadList(v)
  }

  /** A list the 1..n loop reads, every entry of which converts with `f`. */
  predicate ListDecodes<T>(v: Value, f: Value -> Result<T, TmxError>) {
    v.Table? && AllOk(NonNilPrefix(v.items), f)
  }

  /** The same for a list that may be absent. */
  predicate OptionalListDecodes<T>(v: Value, f: Value -> Result<T, TmxError>) {
    v == Nil || ListDecodes(v, f)
  }

  /** What the 1..n loop collects: exactly the values under keys 1..n, none of
      them nil, and key n + 1 is nil. */
  lemma {:induction false} NonNilPrefixIsRun(s: seq<Value>)
    ensures |NonNilPrefix(s)| <= |s|
    ensures NonNilPrefix(s) == s[..|NonNilPrefix(s)|]
    ensures forall k :: 0 <= k < |NonNilPrefix(s)| ==> s[k] != Nil
    ensures |NonNilPrefix(s)| < |s| ==> s[|NonNilPrefix(s)|] == Nil
  {
    if s != [] && s[0] != Nil {
      NonNilPrefixIsRun(s[1..]);
      assert forall k :: 1 <= k < |s| ==> s[k] == s[1..][k - 1];
    }
  }

  /** Conversely, a run of non-nil values followed by nil or the end is the
      prefix the loop collects. */
  lemma {:induction false} RunIsNonNilPrefix(s: seq<Value>, n: nat)
    requires n <= |s|
    requires forall k :: 0 <= k < n ==> s[k] != Nil
    requires n < |s| ==> s[n] == Nil
    ensures NonNilPrefix(s) == s[..n]
  {
    if n > 0 {
      RunIsNonNilPrefix(s[1..], n - 1);
      assert s[..n] == [s[0]] + s[1..][..n - 1];
    }
  }

  /** The counting loop itself: ask for ref[1], ref[2], ... and append each
      value until the first nil. */
  method CollectList(v: Value) returns (r: Result<seq<Value>, TmxError>)
    ensures r == ReadList(v)
  {
    if !v.Table? {
      return Err(ScriptError);
    }
    var out: seq<Value> := [];
    var i := 1;
    var x := Item(v, i).value;
    while x != Nil
      invariant 1 <= i <= |v.items| + 1
      invariant x == (if i <= |v.items| then v.items[i - 1] else Nil)
      invariant out == v.items[..i - 1]
      invariant forall k :: 0 <= k < i - 1 ==> v.items[k] != Nil
      decreases |v.items| + 1 - i
    {
      out := out + [x];
      i := i + 1;
      x := Item(v, i).value;
    }
    RunIsNonNilPrefix(v.items, i - 1);
    r := Ok(out);
  }

  /** Conversions of a field's value to a C++ type. */

  /** To `int`: a number, anything else is refused. */
  function AsInt(v: Value): (r: Result<int, TmxError>)
    ensures r.Ok? <==> v.Num?
  {
    if v.Num? then Ok(v.n) else Err(ScriptError)
  }

  /** To `unsigned`: a number, reduced modulo 2^32 as the cast does. */
  function AsU32(v: Value): (r: Result<U32Value, TmxError>)
    ensures r.Ok? <==> v.Num?
    ensures r.Ok? && 0 <= v.n < U32 ==> r.value == v.n
  {
    if v.Num? then Ok(v.n % U32) else Err(ScriptError)
  }

  /** To `bool`: the runtime's truth value (nil and false are false). */
  function AsBool(v: Value): (r: bool)
    ensures r <==> !(v == Nil || v == Bool(false))
  {
    match v
    case Nil => false
    case Bool(b) => b
    case _ => true
  }

  /** To `std::string`: a string, anything else is refused. */
  function AsString(v: Value): (r: Result<string, TmxError>)
    ensures r.Ok? <==> v.Str?
  {
    if v.Str? then Ok(v.s) else Err(ScriptError)
  }

  /** `ref["name"]` converted to the type of the field it initialises. */

  function GetInt(v: Value, name: string): Result<int, TmxError> {
    var f :- Field(v, name);
    AsInt(f)
  }

  function GetU32(v: Value, name: string): Result<U32Value, TmxError> {
    var f :- Field(v, name);
    AsU32(f)
  }

  function GetString(v: Value, name: string): Result<string, TmxError> {
    var f :- Field(v, name);
    AsString(f)
  }
}

=== FILE: scene_builder.dfy ===
/** loadObjects of src/TantechEngine/tmx.cpp: walk the layers in document
    order with a depth counter, create one entity per object of every
    object-group layer, look up the object's tileset and hand the entity to
    the transform, animation and (when present) data stores.  The stores are
    modelled by a recorder of the calls they receive; the float transform
    itself is not computed. */
module SceneBuilder {
  import opened Wrappers
  import opened TmxTypes
  import opened TilesetResolver
  import opened Entities

  /** One request to a collaborator. */
  datatype Call =
    /** transformComponent.setLocalTransform: the entity, its depth, the
        tileset that scales it and the object that places it. */
    | SetLocalTransform(entity: Entity, depth: U32Value, tileset: nat, obj: Object)
    /** animationComponent.setAnimations: one animation, built from the
        object's gid, under key 0 and started at 0. */
    | SetAnimations(entity: Entity, gid: U32Value)
    /** dataComponent->create(entity, object.id) */
    | DataCreate(entity: Entity, id: int)
    /** dataComponent->setData(entity, {"name", object.name}) */
    | DataSetName(entity: Entity, name: string)

  /** The component stores as seen from loadObjects: the calls, in order. */
  class Recorder {
    var calls: seq<Call>

    constructor ()
      ensures calls == []
    {
      calls := [];
    }

    method Record(c: Call)
      modifies this
      ensures calls == old(calls) + [c]
    {
      calls := calls + [c];
    }
  }

  /** The handles of a sequence, as a set. */
  function Elems(s: seq<Entity>): set<Entity> {
    set e | e in s
  }

  /** An object with the depth of the layer that holds it. */
  datatype Placement = Placement(depth: U32Value, obj: Object)

  /** What layer k contributes: nothing for a tile layer, each object at
      depth k (an `unsigned` counter) for an object group. */
  function LayerPlacements(k: nat, layer: Layer): (ps: seq<Placement>)
    ensures layer.layerType == TileLayer ==> ps == []
    ensures layer.layerType == ObjectGroupLayer ==> |ps| == |layer.objects|
  {
    if layer.layerType == TileLayer then []
    else seq(|layer.objects|, j requires 0 <= j < |layer.objects| => Placement(k % U32, layer.objects[j]))
  }

  /** The objects of the first n layers, in the order the two for_each
      loops visit them. */
  function PlacementsUpTo(layers: seq<Layer>, n: nat): seq<Placement>
    requires n <= |layers|
    decreases n
  {
    if n == 0 then [] else PlacementsUpTo(layers, n - 1) + LayerPlacements(n - 1, layers[n - 1])
  }

  /** The objects of all the layers, in visiting order. */
  function Placements(layers: seq<Layer>): seq<Placement> {
    PlacementsUpTo(layers, |layers|)
  }

  /** The objects of the first k layers come first, in the same order, among
      those of the first n layers. */
  lemma {:induction false} PlacementsPrefix(layers: seq<Layer>, k: nat, n: nat)
    requires k <= n <= |layers|
    ensures |PlacementsUpTo(layers, k)| <= |PlacementsUpTo(layers, n)|
    ensures PlacementsUpTo(layers, n)[..|PlacementsUpTo(layers, k)|] == PlacementsUpTo(layers, k)
    decreases n
  {
    if k < n {
      var front, back := PlacementsUpTo(layers, n - 1), LayerPlacements(n - 1, layers[n - 1]);
      assert PlacementsUpTo(layers, n) == front + back;
      PlacementsPrefix(layers, k, n - 1);
      PrefixGrows(PlacementsUpTo(layers, k), front, back);
    }
  }

  /** A prefix of front is a prefix of front + back. */
  lemma PrefixGrows<T>(base: seq<T>, front: seq<T>, back: seq<T>)
    requires |base| <= |front| && front[..|base|] == base
    ensures |base| <= |front + back| && (front + back)[..|base|] == base
  {
    assert (front + back)[..|base|] == front[..|base|];
  }

  /** The objects of layer k follow those of the layers before it. */
  lemma LayerSlice(layers: seq<Layer>, k: nat)
    requires k < |layers|
    ensures |PlacementsUpTo(layers, k)| + |LayerPlacements(k, layers[k])| <= |Placements(layers)|
    ensures Placements(layers)[..|PlacementsUpTo(layers, k)| + |LayerPlacements(k, layers[k])|]
      == PlacementsUpTo(layers, k) + LayerPlacements(k, layers[k])
  {
    PlacementsPrefix(layers, k + 1, |layers|);
  }

  /** Object j of object-group layer k is visited right after the objects of
      the layers before k and the first j objects of layer k, at depth k. */
  lemma PlacementAt(layers: seq<Layer>, k: nat, j: nat)
    requires k < |layers| && layers[k].layerType == ObjectGroupLayer && j < |layers[k].objects|
    ensures |PlacementsUpTo(layers, k)| + j < |Placements(layers)|
    ensures Placements(layers)[|PlacementsUpTo(layers, k)| + j] == Placement(k % U32, layers[k].objects[j])
  {
    LayerSlice(layers, k);
    ElementOfSlice(Placements(layers), PlacementsUpTo(layers, k), LayerPlacements(k, layers[k]), j);
    assert LayerPlacements(k, layers[k])[j] == Placement(k % U32, layers[k].objects[j]);
  }

  /** When front + back begins whole, element j of back is element |front| + j of whole. */
  lemma ElementOfSlice<T>(whole: seq<T>, front: seq<T>, back: seq<T>, j: nat)
    requires |front| + |back| <= |whole| && whole[..|front| + |back|] == front + back && j < |back|
    ensures whole[|front| + j] == back[j]
  {
    assert whole[..|front| + |back|][|front| + j] == (front + back)[|front| + j];
  }

  /** Every visited object comes from an object-group layer, at that layer's
      depth: tile layers contribute no entity, yet count towards the depth. */
  lemma {:induction false} PlacementOrigin(layers: seq<Layer>, n: nat, i: nat)
    requires n <= |layers| && i < |PlacementsUpTo(layers, n)|
    ensures exists k, j ::
      && 0 <= k < n && 0 <= j < |layers[k].objects|
      && layers[k].layerType == ObjectGroupLayer
      && PlacementsUpTo(layers, n)[i] == Placement(k % U32, layers[k].objects[j])
    decreases n
  {
    var front, last := PlacementsUpTo(layers, n - 1), LayerPlacements(n - 1, layers[n - 1]);
    assert PlacementsUpTo(layers, n) == front + last;
    if i < |front| {
      PlacementOrigin(layers, n - 1, i);
      var k, j :| && 0 <= k < n - 1 && 0 <= j < |layers[k].objects|
                  && layers[k].layerType == ObjectGroupLayer
                  && front[i] == Placement(k % U32, layers[k].objects[j]);
      assert (front + last)[i] == front[i];
    } else {
      var j := i - |front|;
      assert layers[n - 1].layerType == ObjectGroupLayer;
      assert (front + last)[i] == last[j] == Placement((n - 1) % U32, layers[n - 1].objects[j]);
    }
  }

  /** A tile layer, a group of two objects, a tile layer and a group of one:
      the objects sit at depths 1, 1 and 3. */
  lemma DepthCountsEveryLayer(tiles: Layer, group: Layer, a: Object, b: Object, c: Object)
    requires tiles.layerType == TileLayer && group.layerType == ObjectGroupLayer
    ensures var layers := [tiles, group.(objects := [a, b]), tiles, group.(objects := [c])];
      Placements(layers) == [Placement(1, a), Placement(1, b), Placement(3, c)]
  {
    var layers := [tiles, group.(objects := [a, b]), tiles, group.(objects := [c])];
    assert PlacementsUpTo(layers, 1) == [];
    assert PlacementsUpTo(layers, 2) == [Placement(1, a), Placement(1, b)];
    assert PlacementsUpTo(layers, 3) == [Placement(1, a), Placement(1, b)];
  }

  /** The calls made for one object and its entity: none when its tileset
      lookup throws; otherwise the transform and the animation, then the
      two data-store calls only when a data store is supplied. */
  function ObjectCalls(tmx: Tmx, p: Placement, e: Entity, withData: bool): (cs: seq<Call>)
    ensures FindTileset(tmx.tilesets, p.obj.gid).Err? ==> cs == []
  {
    match FindTileset(tmx.tilesets, p.obj.gid)
    case Err(_) => []
    case Ok(t) =>
      [SetLocalTransform(e, p.depth, t, p.obj), SetAnimations(e, p.obj.gid)]
      + (if withData then [DataCreate(e, p.obj.id), DataSetName(e, p.obj.name)] else [])
  }

  /** The calls of a traversal that visited ps and created es, in order. */
  function TraversalCalls(tmx: Tmx, ps: seq<Placement>, es: seq<Entity>, withData: bool): seq<Call>
    requires |ps| == |es|
    decreases |ps|
  {
    if ps == [] then []
    else
      TraversalCalls(tmx, ps[..|ps| - 1], es[..|es| - 1], withData)
      + ObjectCalls(tmx, ps[|ps| - 1], es[|es| - 1], withData)
  }

  /** Every visited object's tileset was found. */
  predicate AllFound(tmx: Tmx, ps: seq<Placement>) {
    forall i :: 0 <= i < |ps| ==> FindTileset(tmx.tilesets, ps[i].obj.gid).Ok?
  }

  /** How many calls one object costs when its tileset is found. */
  function CallsPerObject(withData: bool): nat {
    if withData then 4 else 2
  }

  /** Without a data store no data-store call is ever made. */
  lemma {:induction false} NoDataCallsWithoutStore(tmx: Tmx, ps: seq<Placement>, es: seq<Entity>)
    requires |ps| == |es|
    ensures forall c :: c in TraversalCalls(tmx, ps, es, false) ==> c.SetLocalTransform? || c.SetAnimations?
    decreases |ps|
  {
    if ps != [] {
      NoDataCallsWithoutStore(tmx, ps[..|ps| - 1], es[..|es| - 1]);
    }
  }

  /** When every lookup succeeds, each object costs CallsPerObject calls. */
  lemma {:induction false} TraversalCallsSize(tmx: Tmx, ps: seq<Placement>, es: seq<Entity>, withData: bool)
    requires |ps| == |es| && AllFound(tmx, ps)
    ensures |TraversalCalls(tmx, ps, es, withData)| == CallsPerObject(withData) * |ps|
    decreases |ps|
  {
    if ps != [] {
      var n := |ps| - 1;
      assert AllFound(tmx, ps[..n]);
      TraversalCallsSize(tmx, ps[..n], es[..n], withData);
    }
  }

  /** Appending one visited object appends its calls. */
  lemma TraversalCallsStep(tmx: Tmx, ps: seq<Placement>, es: seq<Entity>, p: Placement, e: Entity, withData: bool)
    requires |ps| == |es|
    ensures TraversalCalls(tmx, ps + [p], es + [e], withData)
      == TraversalCalls(tmx, ps, es, withData) + ObjectCalls(tmx, p, e, withData)
  {
    assert (ps + [p])[..|ps|] == ps;
    assert (es + [e])[..|es|] == es;
  }

  /** The calls of two walks one after the other are the calls of the first
      followed by those of the second. */
  lemma {:induction false} TraversalCallsAppend(tmx: Tmx, ps: seq<Placement>, es: seq<Entity>,
                                                qs: seq<Placement>, fs: seq<Entity>, withData: bool)
    requires |ps| == |es| && |qs| == |fs|
    ensures TraversalCalls(tmx, ps + qs, es + fs, withData)
      == TraversalCalls(tmx, ps, es, withData) + TraversalCalls(tmx, qs, fs, withData)
    decreases |qs|
  {
    if ps == [] {
      assert ps + qs == qs && es + fs == fs;
    } else if qs == [] {
      assert ps + qs == ps && es + fs == es;
    } else {
      var n := |qs| - 1;
      TraversalCallsAppend(tmx, ps, es, qs[..n], fs[..n], withData);
      assert (ps + qs)[..|ps + qs| - 1] == ps + qs[..n];
      assert (es + fs)[..|es + fs| - 1] == es + fs[..n];
      assert (ps + qs)[|ps + qs| - 1] == qs[n] && (es + fs)[|es + fs| - 1] == fs[n];
      ConcatAssociates(TraversalCalls(tmx, ps, es, withData), TraversalCalls(tmx, qs[..n], fs[..n], withData),
                       ObjectCalls(tmx, qs[n], fs[n], withData));
    }
  }

  /** Object i and its entity own a contiguous run of the calls: those of
      the objects before it, then its own, then those of the objects after. */
  lemma ObjectCallsAt(tmx: Tmx, ps: seq<Placement>, es: seq<Entity>, withData: bool, i: nat)
    requires |ps| == |es| && i < |ps|
    ensures TraversalCalls(tmx, ps, es, withData)
      == TraversalCalls(tmx, ps[..i], es[..i], withData)
       + ObjectCalls(tmx, ps[i], es[i], withData)
       + TraversalCalls(tmx, ps[i + 1..], es[i + 1..], withData)
  {
    var pre, epre := ps[..i + 1], es[..i + 1];
    var post, epost := ps[i + 1..], es[i + 1..];
    calc {
      TraversalCalls(tmx, ps, es, withData);
      { assert ps == pre + post; assert es == epre + epost; }
      TraversalCalls(tmx, pre + post, epre + epost, withData);
      { TraversalCallsAppend(tmx, pre, epre, post, epost, withData); }
      TraversalCalls(tmx, pre, epre, withData) + TraversalCalls(tmx, post, epost, withData);
      { assert pre[..i] == ps[..i] && epre[..i] == es[..i]; }
      TraversalCalls(tmx, ps[..i], es[..i], withData) + ObjectCalls(tmx, ps[i], es[i], withData)
        + TraversalCalls(tmx, post, epost, withData);
    }
  }

  /** When every lookup succeeds, object i's calls start at position
      CallsPerObject * i. */
  lemma ObjectCallsStart(tmx: Tmx, ps: seq<Placement>, es: seq<Entity>, withData: bool, i: nat)
    requires |ps| == |es| && AllFound(tmx, ps) && i < |ps|
    ensures |TraversalCalls(tmx, ps[..i], es[..i], withData)| == CallsPerObject(withData) * i
  {
    assert ps == ps[..i] + ps[i..];
    AllFoundAppend(tmx, ps[..i], ps[i..]);
    TraversalCallsSize(tmx, ps[..i], es[..i], withData);
  }

  /** The calls of one object whose tileset t is found: its transform at its
      depth, its animation, then (with a data store) its id and its name. */
  lemma ObjectCallsFound(tmx: Tmx, p: Placement, e: Entity, withData: bool)
    requires FindTileset(tmx.tilesets, p.obj.gid).Ok?
    ensures var t := FindTileset(tmx.tilesets, p.obj.gid).value;
      var cs := ObjectCalls(tmx, p, e, withData);
      && |cs| == CallsPerObject(withData)
      && cs[0] == SetLocalTransform(e, p.depth, t, p.obj)
      && cs[1] == SetAnimations(e, p.obj.gid)
      && (withData ==> cs[2] == DataCreate(e, p.obj.id) && cs[3] == DataSetName(e, p.obj.name))
  {
  }

  /** Every object of a concatenation found its tileset exactly when every
      object of both parts did. */
  lemma AllFoundAppend(tmx: Tmx, ps: seq<Placement>, qs: seq<Placement>)
    ensures AllFound(tmx, ps + qs) <==> AllFound(tmx, ps) && AllFound(tmx, qs)
  {
    if AllFound(tmx, ps + qs) {
      forall i | 0 <= i < |ps|
        ensures FindTileset(tmx.tilesets, ps[i].obj.gid).Ok?
      {
        assert (ps + qs)[i] == ps[i];
      }
      forall i | 0 <= i < |qs|
        ensures FindTileset(tmx.tilesets, qs[i].obj.gid).Ok?
      {
        assert (ps + qs)[|ps| + i] == qs[i];
      }
    }
    if AllFound(tmx, ps) && AllFound(tmx, qs) {
      forall i | 0 <= i < |ps + qs|
        ensures FindTileset(tmx.tilesets, (ps + qs)[i].obj.gid).Ok?
      {
        if i < |ps| {
          assert (ps + qs)[i] == ps[i];
        } else {
          assert (ps + qs)[i] == qs[i - |ps|];
        }
      }
    }
  }

  /** Appending one object whose lookup succeeds keeps AllFound. */
  lemma AllFoundStep(tmx: Tmx, ps: seq<Placement>, p: Placement)
    ensures AllFound(tmx, ps + [p]) <==> AllFound(tmx, ps) && FindTileset(tmx.tilesets, p.obj.gid).Ok?
  {
    AllFoundAppend(tmx, ps, [p]);
    assert [p][0] == p;
  }

  /** The objects of layer k visited so far follow those of the layers
      before it. */
  lemma LayerStep(layers: seq<Layer>, k: nat, m: nat)
    requires k < |layers| && m <= |LayerPlacements(k, layers[k])|
    ensures |PlacementsUpTo(layers, k)| + m <= |Placements(layers)|
    ensures Placements(layers)[..|PlacementsUpTo(layers, k)| + m]
      == PlacementsUpTo(layers, k) + LayerPlacements(k, layers[k])[..m]
  {
    LayerSlice(layers, k);
    PrefixOfSlice(Placements(layers), PlacementsUpTo(layers, k), LayerPlacements(k, layers[k]), m);
  }

  /** When front + back begins whole, front + back[..m] begins it too. */
  lemma PrefixOfSlice<T>(whole: seq<T>, front: seq<T>, back: seq<T>, m: nat)
    requires |front| + |back| <= |whole| && whole[..|front| + |back|] == front + back && m <= |back|
    ensures whole[..|front| + m] == front + back[..m]
  {
    assert whole[..|front| + m] == whole[..|front| + |back|][..|front| + m];
    assert (front + back)[..|front| + m] == front + back[..m];
  }

  /** The call log of a walk: it started as calls0, the walk visited ps and
      created es, one entity per object, and the log is now calls0 followed
      by the walk's calls. */
  ghost predicate LogAccounts(tmx: Tmx, withData: bool, calls0: seq<Call>,
                              ps: seq<Placement>, es: seq<Entity>, calls: seq<Call>)
  {
    |ps| == |es| && calls == calls0 + TraversalCalls(tmx, ps, es, withData)
  }

  /** Each entity of es was not among the handles issued before, and none
      occurs twice. */
  ghost predicate Fresh(issued0: set<Entity>, es: seq<Entity>) {
    && (forall i :: 0 <= i < |es| ==> es[i] !in issued0)
    && (forall i, l :: 0 <= i < l < |es| ==> es[i] != es[l])
  }

  /** The handles of a walk: it started with live handles live0 and issued
      handles issued0 and created es.  The created entities are fresh, and
      they are exactly the handles that became issued and alive. */
  ghost predicate HandleAccounts(live0: set<Entity>, issued0: set<Entity>, es: seq<Entity>,
                                 live: set<Entity>, issued: set<Entity>)
  {
    && live == live0 + Elems(es)
    && issued == issued0 + Elems(es)
    && Fresh(issued0, es)
  }

  /** One more object: its calls join the log. */
  lemma LogStep(tmx: Tmx, withData: bool, calls0: seq<Call>, ps: seq<Placement>, es: seq<Entity>,
                calls: seq<Call>, p: Placement, e: Entity, calls': seq<Call>)
    requires LogAccounts(tmx, withData, calls0, ps, es, calls)
    requires calls' == calls + ObjectCalls(tmx, p, e, withData)
    ensures LogAccounts(tmx, withData, calls0, ps + [p], es + [e], calls')
  {
    TraversalCallsStep(tmx, ps, es, p, e, withData);
  }

  /** One more entity, never issued before: it joins the live and the issued
      handles. */
  lemma HandleStep(live0: set<Entity>, issued0: set<Entity>, es: seq<Entity>,
                   live: set<Entity>, issued: set<Entity>, e: Entity,
                   live': set<Entity>, issued': set<Entity>)
    requires HandleAccounts(live0, issued0, es, live, issued)
    requires e !in issued && live' == live + {e} && issued' == issued + {e}
    ensures HandleAccounts(live0, issued0, es + [e], live', issued')
  {
    assert Elems(es + [e]) == Elems(es) + {e};
    FreshAppend(issued0, es, [e]);
  }

  /** Two walks one after the other: the log holds both walks' calls. */
  lemma LogCompose(tmx: Tmx, withData: bool, calls0: seq<Call>,
                   ps: seq<Placement>, es: seq<Entity>, calls1: seq<Call>,
                   qs: seq<Placement>, fs: seq<Entity>, calls2: seq<Call>)
    requires LogAccounts(tmx, withData, calls0, ps, es, calls1)
    requires LogAccounts(tmx, withData, calls1, qs, fs, calls2)
    ensures LogAccounts(tmx, withData, calls0, ps + qs, es + fs, calls2)
  {
    TraversalCallsAppend(tmx, ps, es, qs, fs, withData);
    ConcatAssociates(calls0, TraversalCalls(tmx, ps, es, withData), TraversalCalls(tmx, qs, fs, withData));
  }

  /** Regrouping a concatenation, proved on its own so that the callers'
      proofs need not rediscover it among their other facts. */
  lemma ConcatAssociates<T>(a: seq<T>, b: seq<T>, c: seq<T>)
    ensures (a + b) + c == a + (b + c)
  {
  }

  /** Two walks one after the other: both walks' entities are new, distinct
      and alive. */
  lemma HandleCompose(live0: set<Entity>, issued0: set<Entity>, es: seq<Entity>,
                      live1: set<Entity>, issued1: set<Entity>, fs: seq<Entity>,
                      live2: set<Entity>, issued2: set<Entity>)
    requires HandleAccounts(live0, issued0, es, live1, issued1)
    requires HandleAccounts(live1, issued1, fs, live2, issued2)
    ensures HandleAccounts(live0, issued0, es + fs, live2, issued2)
  {
    assert Elems(es + fs) == Elems(es) + Elems(fs);
    FreshAppend(issued0, es, fs);
  }

  /** Entities fresh with respect to the handles issued before and during a
      first walk extend that walk's fresh entities. */
  lemma FreshAppend(issued0: set<Entity>, es: seq<Entity>, fs: seq<Entity>)
    requires Fresh(issued0, es) && Fresh(issued0 + Elems(es), fs)
    ensures Fresh(issued0, es + fs)
  {
    forall i, l | 0 <= i < l < |es + fs|
      ensures (es + fs)[i] != (es + fs)[l]
    {
      if i < |es| <= l {
        assert (es + fs)[i] in Elems(es);
      }
    }
  }

  /** The per-object lambda: create the entity, then look up its tileset
      (which may throw), then call the stores. */
  method LoadObject(tmx: Tmx, em: EntityManager, log: Recorder, withData: bool, p: Placement)
    returns (entity: Entity, found: bool)
    requires em.Valid()
    modifies em, log
    ensures em.Valid()
    ensures em.Live() == old(em.Live()) + {entity}
    ensures entity !in old(em.Issued()) && em.Issued() == old(em.Issued()) + {entity}
    ensures em.allocationSize == old(em.allocationSize)
    ensures found <==> FindTileset(tmx.tilesets, p.obj.gid).Ok?
    ensures log.calls == old(log.calls) + ObjectCalls(tmx, p, entity, withData)
  {
    entity := em.Create();
    var index := GetTilesetIndex(tmx, p.obj.gid);
    if index.Err? {
      return entity, false;
    }
    log.Record(SetLocalTransform(entity, p.depth, index.value, p.obj));
    log.Record(SetAnimations(entity, p.obj.gid));
    if withData {
      log.Record(DataCreate(entity, p.obj.id));
      log.Record(DataSetName(entity, p.obj.name));
    }
    found := true;
  }

  /** LoadObject as step j of a walk over ps: the walk so far visited
      ps[..j] and created es, and its accounts extend by object ps[j] and
      its entity, the last entry of es'. */
  method VisitObject(tmx: Tmx, em: EntityManager, log: Recorder, withData: bool, p: Placement,
                     ghost calls0: seq<Call>, ghost live0: set<Entity>, ghost issued0: set<Entity>,
                     ghost ps: seq<Placement>, ghost j: nat, es: seq<Entity>)
    returns (es': seq<Entity>, found: bool)
    requires em.Valid() && j < |ps| && p == ps[j]
    requires LogAccounts(tmx, withData, calls0, ps[..j], es, log.calls)
    requires HandleAccounts(live0, issued0, es, em.Live(), em.Issued())
    modifies em, log
    ensures em.Valid()
    ensures |es'| == j + 1 && es'[..j] == es
    ensures found <==> FindTileset(tmx.tilesets, p.obj.gid).Ok?
    ensures AllFound(tmx, ps[..j + 1]) <==> AllFound(tmx, ps[..j]) && found
    ensures LogAccounts(tmx, withData, calls0, ps[..j + 1], es', log.calls)
    ensures HandleAccounts(live0, issued0, es', em.Live(), em.Issued())
    ensures em.allocationSize == old(em.allocationSize)
  {
    ghost var live, issued, calls := em.Live(), em.Issued(), log.calls;
    var entity;
    entity, found := LoadObject(tmx, em, log, withData, p);
    ObjectVisited(tmx, withData, calls0, live0, issued0, ps, j, es, calls, live, issued,
                  entity, found, log.calls, em.Live(), em.Issued());
    es' := es + [entity];
  }

  /** What one more visited object adds to the accounts of the walk so far. */
  lemma ObjectVisited(tmx: Tmx, withData: bool, calls0: seq<Call>, live0: set<Entity>, issued0: set<Entity>,
                      ps: seq<Placement>, j: nat, es: seq<Entity>,
                      calls: seq<Call>, live: set<Entity>, issued: set<Entity>, entity: Entity, found: bool,
                      calls': seq<Call>, live': set<Entity>, issued': set<Entity>)
    requires j < |ps|
    requires LogAccounts(tmx, withData, calls0, ps[..j], es, calls)
    requires HandleAccounts(live0, issued0, es, live, issued)
    requires live' == live + {entity} && entity !in issued && issued' == issued + {entity}
    requires found <==> FindTileset(tmx.tilesets, ps[j].obj.gid).Ok?
    requires calls' == calls + ObjectCalls(tmx, ps[j], entity, withData)
    ensures |es + [entity]| == j + 1 && (es + [entity])[..j] == es
    ensures AllFound(tmx, ps[..j + 1]) <==> AllFound(tmx, ps[..j]) && found
    ensures LogAccounts(tmx, withData, calls0, ps[..j + 1], es + [entity], calls')
    ensures HandleAccounts(live0, issued0, es + [entity], live', issued')
  {
    assert ps[..j + 1] == ps[..j] + [ps[j]];
    LogStep(tmx, withData, calls0, ps[..j], es, calls, ps[j], entity, calls');
    HandleStep(live0, issued0, es, live, issued, entity, live', issued');
    AllFoundStep(tmx, ps[..j], ps[j]);
    assert (es + [entity])[..j] == es;
  }

  /** The per-layer lambda: advance the depth counter, then skip a tile
      layer or visit the objects of an object group. */
  method LoadLayer(tmx: Tmx, em: EntityManager, log: Recorder, withData: bool,
                   counter: U32Value, layer: Layer, ghost k: nat)
    returns (layerIndex: U32Value, created: seq<Entity>, ok: bool)
    requires em.Valid() && counter == (k + U32 - 1) % U32
    modifies em, log
    ensures layerIndex == k % U32
    ensures em.Valid()
    ensures var ps := LayerPlacements(k, layer);
      && |created| <= |ps|
      && (ok ==> |created| == |ps| && AllFound(tmx, ps))
      && (!ok ==>
            && 0 < |created|
            && AllFound(tmx, ps[..|created| - 1])
            && FindTileset(tmx.tilesets, layer.objects[|created| - 1].gid).Err?)
      && LogAccounts(tmx, withData, old(log.calls), ps[..|created|], created, log.calls)
    ensures HandleAccounts(old(em.Live()), old(em.Issued()), created, em.Live(), em.Issued())
    ensures em.allocationSize == old(em.allocationSize)
  {
    NextDepth(k, counter);
    layerIndex := (counter + 1) % U32;
    if layer.layerType != ObjectGroupLayer {
      NothingLoaded(tmx, withData, log.calls, em.Live(), em.Issued(), LayerPlacements(k, layer));
      return layerIndex, [], true;
    }
    created, ok := LoadGroup(tmx, em, log, withData, layerIndex, layer, k);
  }

  /** The inner for_each: run the object lambda on each object of an
      object group in order, stopping at the first that throws. */
  method LoadGroup(tmx: Tmx, em: EntityManager, log: Recorder, withData: bool,
                   layerIndex: U32Value, layer: Layer, ghost k: nat)
    returns (created: seq<Entity>, ok: bool)
    requires em.Valid() && layerIndex == k % U32 && layer.layerType == ObjectGroupLayer
    modifies em, log
    ensures em.Valid()
    ensures var ps := LayerPlacements(k, layer);
      && |created| <= |ps|
      && (ok ==> |created| == |ps| && AllFound(tmx, ps))
      && (!ok ==>
            && 0 < |created|
            && AllFound(tmx, ps[..|created| - 1])
            && FindTileset(tmx.tilesets, layer.objects[|created| - 1].gid).Err?)
      && LogAccounts(tmx, withData, old(log.calls), ps[..|created|], created, log.calls)
    ensures HandleAccounts(old(em.Live()), old(em.Issued()), created, em.Live(), em.Issued())
    ensures em.allocationSize == old(em.allocationSize)
  {
    ghost var live0, issued0, calls0 := em.Live(), em.Issued(), log.calls;
    ghost var ps := LayerPlacements(k, layer);
    NothingLoaded(tmx, withData, calls0, live0, issued0, ps);
    created, ok := [], true;
    var j := 0;
    while ok && j < |layer.objects|
      invariant 0 <= j <= |layer.objects| && AllFound(tmx, ps[..j])
      invariant ok ==> |created| == j
      invariant !ok ==> j < |layer.objects| && |created| == j + 1 && FindTileset(tmx.tilesets, layer.objects[j].gid).Err?
      invariant em.Valid()
      invariant LogAccounts(tmx, withData, calls0, ps[..|created|], created, log.calls)
      invariant HandleAccounts(live0, issued0, created, em.Live(), em.Issued())
      invariant em.allocationSize == old(em.allocationSize)
      decreases |layer.objects| - j, ok
    {
      var p := Placement(layerIndex, layer.objects[j]);
      created, ok := VisitObject(tmx, em, log, withData, p, calls0, live0, issued0, ps, j, created);
      if ok {
        j := j + 1;
      }
    }
    if ok {
      assert ps[..j] == ps;
    }
  }

  /** Before the first object: nothing found missing, nothing logged, no
      handle created. */
  lemma NothingLoaded(tmx: Tmx, withData: bool, calls0: seq<Call>, live0: set<Entity>, issued0: set<Entity>,
                      ps: seq<Placement>)
    ensures AllFound(tmx, ps[..0])
    ensures LogAccounts(tmx, withData, calls0, ps[..0], [], calls0)
    ensures HandleAccounts(live0, issued0, [], live0, issued0)
  {
    assert calls0 + [] == calls0;
  }

  /** The `unsigned` depth counter starts at -1 and is incremented before
      each layer, so at layer k it holds k modulo 2^32. */
  lemma NextDepth(k: nat, counter: U32Value)
    requires counter == (k + U32 - 1) % U32
    ensures (counter + 1) % U32 == k % U32
    ensures (k + 1 + U32 - 1) % U32 == k % U32
  {
    var r := k % U32;
    assert k == (k / U32) * U32 + r;
    if r == 0 {
      assert (k + U32 - 1) % U32 == U32 - 1;
    } else {
      assert (k + U32 - 1) % U32 == r - 1;
    }
  }

  /** A layer visited in full after the layers before it: its objects and
      their calls follow theirs. */
  lemma LayerCompleted(tmx: Tmx, withData: bool, calls0: seq<Call>, layers: seq<Layer>, k: nat,
                       created: seq<Entity>, calls1: seq<Call>, more: seq<Entity>, calls2: seq<Call>)
    requires k < |layers|
    requires AllFound(tmx, PlacementsUpTo(layers, k))
    requires LogAccounts(tmx, withData, calls0, PlacementsUpTo(layers, k), created, calls1)
    requires |more| == |LayerPlacements(k, layers[k])| && AllFound(tmx, LayerPlacements(k, layers[k]))
    requires LogAccounts(tmx, withData, calls1, LayerPlacements(k, layers[k])[..|more|], more, calls2)
    ensures AllFound(tmx, PlacementsUpTo(layers, k + 1))
    ensures LogAccounts(tmx, withData, calls0, PlacementsUpTo(layers, k + 1), created + more, calls2)
  {
    var qs := LayerPlacements(k, layers[k]);
    assert qs[..|more|] == qs;
    AllFoundAppend(tmx, PlacementsUpTo(layers, k), qs);
    LogCompose(tmx, withData, calls0, PlacementsUpTo(layers, k), created, calls1, qs, more, calls2);
  }

  /** The objects visited before object m - 1 of layer k: those of the
      layers before k and the first m - 1 of layer k.  When all of them found
      their tileset, so did every object before position |before k| + m - 1
      of the whole walk. */
  lemma FoundBeforeStop(tmx: Tmx, layers: seq<Layer>, k: nat, m: nat)
    requires k < |layers| && 0 < m <= |LayerPlacements(k, layers[k])|
    requires AllFound(tmx, PlacementsUpTo(layers, k))
    requires AllFound(tmx, LayerPlacements(k, layers[k])[..m - 1])
    ensures |PlacementsUpTo(layers, k)| + m <= |Placements(layers)|
    ensures forall i :: 0 <= i < |PlacementsUpTo(layers, k)| + m - 1 ==>
      FindTileset(tmx.tilesets, Placements(layers)[i].obj.gid).Ok?
  {
    var done, qs := PlacementsUpTo(layers, k), LayerPlacements(k, layers[k]);
    assert layers[k].layerType == ObjectGroupLayer;
    PlacementAt(layers, k, m - 1);
    if 1 < |done| + m {
      LayerStep(layers, k, m - 1);
      FoundInPrefix(tmx, Placements(layers), |done| + m - 1, done, qs[..m - 1]);
    }
  }

  /** A prefix made of two parts whose objects all found their tileset. */
  lemma FoundInPrefix(tmx: Tmx, ps: seq<Placement>, n: nat, xs: seq<Placement>, ys: seq<Placement>)
    requires n <= |ps| && ps[..n] == xs + ys
    requires AllFound(tmx, xs) && AllFound(tmx, ys)
    ensures forall i :: 0 <= i < n ==> FindTileset(tmx.tilesets, ps[i].obj.gid).Ok?
  {
    AllFoundAppend(tmx, xs, ys);
    assert forall i :: 0 <= i < n ==> ps[..n][i] == ps[i];
  }

  /** A layer whose walk stopped at its object |more| - 1: that object is the
      last of the whole walk, and every object before it found its tileset. */
  lemma LayerStopped(tmx: Tmx, layers: seq<Layer>, k: nat, created: seq<Entity>, more: seq<Entity>)
    requires k < |layers| && |created| == |PlacementsUpTo(layers, k)|
    requires AllFound(tmx, PlacementsUpTo(layers, k))
    requires 0 < |more| <= |LayerPlacements(k, layers[k])|
    requires AllFound(tmx, LayerPlacements(k, layers[k])[..|more| - 1])
    ensures 0 < |created + more| <= |Placements(layers)|
    ensures forall i :: 0 <= i < |created + more| - 1 ==>
      FindTileset(tmx.tilesets, Placements(layers)[i].obj.gid).Ok?
    ensures Placements(layers)[|created + more| - 1].obj == layers[k].objects[|more| - 1]
  {
    FoundBeforeStop(tmx, layers, k, |more|);
    assert layers[k].layerType == ObjectGroupLayer;
    PlacementAt(layers, k, |more| - 1);
  }

  /** The log of a walk that stopped inside layer k: the calls of the layers
      before it, then those of the objects of layer k it visited. */
  lemma LayerStoppedLog(tmx: Tmx, withData: bool, calls0: seq<Call>, layers: seq<Layer>, k: nat,
                        created: seq<Entity>, calls1: seq<Call>, more: seq<Entity>, calls2: seq<Call>)
    requires k < |layers| && |created| == |PlacementsUpTo(layers, k)|
    requires LogAccounts(tmx, withData, calls0, PlacementsUpTo(layers, k), created, calls1)
    requires 0 < |more| <= |LayerPlacements(k, layers[k])|
    requires LogAccounts(tmx, withData, calls1, LayerPlacements(k, layers[k])[..|more|], more, calls2)
    ensures |created + more| <= |Placements(layers)|
    ensures LogAccounts(tmx, withData, calls0, Placements(layers)[..|created + more|], created + more, calls2)
  {
    var ps, done, qs, m := Placements(layers), PlacementsUpTo(layers, k), LayerPlacements(k, layers[k]), |more|;
    var n := |created + more|;
    assert n == |done| + m;
    LayerStep(layers, k, m);
    LogCompose(tmx, withData, calls0, done, created, calls1, qs[..m], more, calls2);
  }

  /** The first k layers were visited completely: every one of their objects
      resolved to a tileset, one entity was created per object, and the log
      holds the calls made for each of them. */
  ghost predicate LayersDone(tmx: Tmx, withData: bool, calls0: seq<Call>, k: nat, created: seq<Entity>, calls: seq<Call>)
    requires k <= |tmx.layers|
  {
    && AllFound(tmx, PlacementsUpTo(tmx.layers, k))
    && LogAccounts(tmx, withData, calls0, PlacementsUpTo(tmx.layers, k), created, calls)
  }

  /** Before the first layer: nothing visited, nothing logged, no handle created. */
  lemma NothingDone(tmx: Tmx, withData: bool, calls0: seq<Call>, live0: set<Entity>, issued0: set<Entity>)
    ensures LayersDone(tmx, withData, calls0, 0, [], calls0)
    ensures HandleAccounts(live0, issued0, [], live0, issued0)
  {
    assert calls0 + [] == calls0;
  }

  /** After the last layer: every object was visited and found. */
  lemma EveryLayerDone(tmx: Tmx, withData: bool, calls0: seq<Call>, created: seq<Entity>, calls: seq<Call>)
    requires LayersDone(tmx, withData, calls0, |tmx.layers|, created, calls)
    ensures var ps := Placements(tmx.layers);
      |created| == |ps| && AllFound(tmx, ps) && LogAccounts(tmx, withData, calls0, ps, created, calls)
  {
  }

  /** The traversal stopped at its |created|-th object: every object before
      it resolved to a tileset, that one did not, one entity was created per
      object visited, and the log holds the calls made for each of them. */
  ghost predicate StoppedAt(tmx: Tmx, withData: bool, calls0: seq<Call>, created: seq<Entity>, calls: seq<Call>) {
    var ps := Placements(tmx.layers);
    && 0 < |created| <= |ps|
    && (forall i :: 0 <= i < |created| - 1 ==> FindTileset(tmx.tilesets, ps[i].obj.gid).Ok?)
    && FindTileset(tmx.tilesets, ps[|created| - 1].obj.gid).Err?
    && LogAccounts(tmx, withData, calls0, ps[..|created|], created, calls)
  }

  /** LoadLayer as one step of the walk over the layers: the walk so far
      visited the layers before k and created `created`; created' extends it
      by the entities made for layer k.  Either the layer is visited in full
      and the accounts cover the layers up to k, or the walk stops inside it
      at an object whose lookup failed.  The depth counter comes back
      incremented. */
  method VisitLayer(tmx: Tmx, em: EntityManager, log: Recorder, withData: bool,
                    counter: U32Value, k: nat, ghost calls0: seq<Call>, ghost live0: set<Entity>,
                    ghost issued0: set<Entity>, created: seq<Entity>)
    returns (counter': U32Value, created': seq<Entity>, ok: bool)
    requires em.Valid() && k < |tmx.layers| && counter == (k + U32 - 1) % U32
    requires LayersDone(tmx, withData, calls0, k, created, log.calls)
    requires HandleAccounts(live0, issued0, created, em.Live(), em.Issued())
    modifies em, log
    ensures counter' == (k + 1 + U32 - 1) % U32
    ensures em.Valid()
    ensures HandleAccounts(live0, issued0, created', em.Live(), em.Issued())
    ensures ok ==> LayersDone(tmx, withData, calls0, k + 1, created', log.calls)
    ensures !ok ==> StoppedAt(tmx, withData, calls0, created', log.calls)
    ensures em.allocationSize == old(em.allocationSize)
  {
    ghost var live, issued, calls := em.Live(), em.Issued(), log.calls;
    var more;
    counter', more, ok := LoadLayer(tmx, em, log, withData, counter, tmx.layers[k], k);
    NextDepth(k, counter);
    HandleCompose(live0, issued0, created, live, issued, more, em.Live(), em.Issued());
    if ok {
      LayerCompleted(tmx, withData, calls0, tmx.layers, k, created, calls, more, log.calls);
    } else {
      LayerStopped(tmx, tmx.layers, k, created, more);
      LayerStoppedLog(tmx, withData, calls0, tmx.layers, k, created, calls, more, log.calls);
    }
    created' := created + more;
  }

  /** loadObjects.  `created` lists the entities made, in order; `err` is the
      exception that ended the walk, if any.  The walk visits the objects in
      layer-then-object order and creates one entity per object; an object
      whose gid no tileset owns still gets its entity, because create runs
      before the lookup, and then stops the walk with no call made for it.
      Calls already made and entities already created stay: the live handles
      grow by exactly the created entities, none of which was issued before,
      and the log grows by the calls of the objects visited.  The exception
      ends the outer for_each too, so the loop runs while no lookup failed. */
  method LoadObjects(tmx: Tmx, em: EntityManager, log: Recorder, withData: bool)
    returns (created: seq<Entity>, err: Option<TmxError>)
    requires em.Valid()
    modifies em, log
    ensures em.Valid()
    ensures err.None? ==>
      var ps := Placements(tmx.layers);
      |created| == |ps| && AllFound(tmx, ps) && LogAccounts(tmx, withData, old(log.calls), ps, created, log.calls)
    ensures err.Some? ==>
      err == Some(NoTilesetForGid) && StoppedAt(tmx, withData, old(log.calls), created, log.calls)
    ensures HandleAccounts(old(em.Live()), old(em.Issued()), created, em.Live(), em.Issued())
    ensures em.allocationSize == old(em.allocationSize)
  {
    ghost var live0, issued0, calls0 := em.Live(), em.Issued(), log.calls;
    created := [];
    NothingDone(tmx, withData, calls0, live0, issued0);
    var layerIndex: U32Value := U32 - 1;
    var k, ok := 0, true;
    while ok && k < |tmx.layers|
      invariant 0 <= k <= |tmx.layers|
      invariant ok ==> layerIndex == (k + U32 - 1) % U32
      invariant em.Valid()
      invariant ok ==> LayersDone(tmx, withData, calls0, k, created, log.calls)
      invariant !ok ==> StoppedAt(tmx, withData, calls0, created, log.calls)
      invariant HandleAccounts(live0, issued0, created, em.Live(), em.Issued())
      invariant em.allocationSize == old(em.allocationSize)
      decreases |tmx.layers| - k, ok
    {
      layerIndex, created, ok := VisitLayer(tmx, em, log, withData, layerIndex, k, calls0, live0, issued0, created);
      if ok {
        k := k + 1;
      }
    }
    if ok {
      EveryLayerDone(tmx, withData, calls0, created, log.calls);
      err := None;
    } else {
      err := Some(NoTilesetForGid);
    }
  }
}

=== FILE: tileset_resolver.dfy ===
/** getTilesetIndex of src/TantechEngine/tmx.cpp: the first tileset whose
    global-tile-id range [firstgid, firstgid + tilecount) holds a gid, with the
    upper bound computed in 32-bit unsigned arithmetic. */
module TilesetResolver {
  import opened Wrappers
  import opened TmxTypes

  /** `it->firstgid + it->tilecount` as an `unsigned`: the sum wraps at 2^32. */
  function LastExclusive(ts: Tileset): (last: U32Value)
    ensures ts.firstgid + ts.tilecount < U32 ==> last == ts.firstgid + ts.tilecount
    ensures ts.firstgid + ts.tilecount >= U32 ==> last == ts.firstgid + ts.tilecount - U32
  {
    (ts.firstgid + ts.tilecount) % U32
  }

  /** The range test of the loop body. */
  predicate Owns(ts: Tileset, gid: U32Value) {
    ts.firstgid <= gid < LastExclusive(ts)
  }

  /** The index the search returns: the first tileset that owns gid; when none
      does, the out_of_range error. */
  function FindTileset(tilesets: seq<Tileset>, gid: U32Value): (r: Result<nat, TmxError>)
    ensures r.Ok? ==> r.value < |tilesets|
    ensures r.Err? ==> r.error == NoTilesetForGid
  {
    FindFrom(tilesets, gid, 0)
  }

  /** The scan from position i on. */
  function FindFrom(tilesets: seq<Tileset>, gid: U32Value, i: nat): (r: Result<nat, TmxError>)
    requires i <= |tilesets|
    ensures r.Ok? ==> i <= r.value < |tilesets|
    ensures r.Err? ==> r.error == NoTilesetForGid
    decreases |tilesets| - i
  {
    if i == |tilesets| then Err(NoTilesetForGid)
    else if Owns(tilesets[i], gid) then Ok(i)
    else FindFrom(tilesets, gid, i + 1)
  }

  /** The scan from i finds the first owner at or after i, and fails exactly
      when no tileset from i on owns gid. */
  lemma {:induction false} FindFromIsFirstOwner(tilesets: seq<Tileset>, gid: U32Value, i: nat)
    requires i <= |tilesets|
    ensures var r := FindFrom(tilesets, gid, i);
      && (r.Ok? ==> Owns(tilesets[r.value], gid))
      && (r.Ok? ==> forall k :: i <= k < r.value ==> !Owns(tilesets[k], gid))
      && (r.Err? <==> forall k :: i <= k < |tilesets| ==> !Owns(tilesets[k], gid))
    decreases |tilesets| - i
  {
    if i < |tilesets| && !Owns(tilesets[i], gid) {
      FindFromIsFirstOwner(tilesets, gid, i + 1);
    }
  }

  /** The search finds the first owner: the tileset found owns gid and none
      before it does, and the search fails exactly when no tileset owns gid. */
  lemma FindTilesetIsFirstOwner(tilesets: seq<Tileset>, gid: U32Value)
    ensures var r := FindTileset(tilesets, gid);
      && (r.Ok? ==> Owns(tilesets[r.value], gid))
      && (r.Ok? ==> forall k :: 0 <= k < r.value ==> !Owns(tilesets[k], gid))
      && (r.Err? <==> forall k :: 0 <= k < |tilesets| ==> !Owns(tilesets[k], gid))
  {
    FindFromIsFirstOwner(tilesets, gid, 0);
  }

  /** A tileset that owns gid, with none before it that does, is the one found. */
  lemma FirstOwnerIsFound(tilesets: seq<Tileset>, gid: U32Value, i: nat)
    requires i < |tilesets| && Owns(tilesets[i], gid)
    requires forall k :: 0 <= k < i ==> !Owns(tilesets[k], gid)
    ensures FindTileset(tilesets, gid) == Ok(i)
  {
    FindTilesetIsFirstOwner(tilesets, gid);
  }

  /** The loop itself: scan in order and return at the first owner. */
  method GetTilesetIndex(tmx: Tmx, gid: U32Value) returns (r: Result<nat, TmxError>)
    ensures r == FindTileset(tmx.tilesets, gid)
  {
    var i := 0;
    while i < |tmx.tilesets|
      invariant 0 <= i <= |tmx.tilesets|
      invariant FindTileset(tmx.tilesets, gid) == FindFrom(tmx.tilesets, gid, i)
    {
      var firstInclusive := tmx.tilesets[i].firstgid;
      var lastExclusive := (tmx.tilesets[i].firstgid + tmx.tilesets[i].tilecount) % U32;
      if gid >= firstInclusive && gid < lastExclusive {
        return Ok(i);
      }
      i := i + 1;
    }
    return Err(NoTilesetForGid);
  }

  /** Without wrap-around the test is plain range membership. */
  lemma OwnsWithoutWrap(ts: Tileset, gid: U32Value)
    requires ts.firstgid + ts.tilecount < U32
    ensures Owns(ts, gid) <==> ts.firstgid <= gid < ts.firstgid + ts.tilecount
  {
  }

  /** When the sum wraps, the upper bound falls below firstgid and the
      tileset owns no gid at all. */
  lemma WrappedRangeOwnsNothing(ts: Tileset, gid: U32Value)
    requires ts.firstgid + ts.tilecount >= U32
    ensures !Owns(ts, gid)
  {
  }

  /** With pairwise disjoint ranges the gid's tileset is the only one that
      owns it, so the order of the tilesets does not matter. */
  lemma DisjointRangesGiveTheOwner(tilesets: seq<Tileset>, gid: U32Value, i: nat)
    requires i < |tilesets| && Owns(tilesets[i], gid)
    requires forall k, l :: 0 <= k < l < |tilesets| ==>
      LastExclusive(tilesets[k]) <= tilesets[l].firstgid || LastExclusive(tilesets[l]) <= tilesets[k].firstgid
    ensures FindTileset(tilesets, gid) == Ok(i)
  {
    forall k | 0 <= k < i
      ensures !Owns(tilesets[k], gid)
    {
    }
    FirstOwnerIsFound(tilesets, gid, i);
  }

  function SampleTileset(firstgid: U32Value, tilecount: U32Value): Tileset {
    Tileset("", firstgid, 0, 0, 0, 0, "", 0, 0, TransparentColor(0, 0, 0, false),
            TileOffset(0, 0), [], tilecount, [])
  }

  /** Three adjacent tilesets covering [1, 10), [10, 15) and [15, 100). */
  lemma ThreeTilesetsExample()
    ensures var ts := [SampleTileset(1, 9), SampleTileset(10, 5), SampleTileset(15, 85)];
      && FindTileset(ts, 9) == Ok(0)
      && FindTileset(ts, 10) == Ok(1)
      && FindTileset(ts, 99) == Ok(2)
      && FindTileset(ts, 100) == Err(NoTilesetForGid)
      && FindTileset(ts, 0) == Err(NoTilesetForGid)
  {
    var ts := [SampleTileset(1, 9), SampleTileset(10, 5), SampleTileset(15, 85)];
    FirstOwnerIsFound(ts, 9, 0);
    FirstOwnerIsFound(ts, 10, 1);
    FirstOwnerIsFound(ts, 99, 2);
  }
}

=== FILE: tmx_color.dfy ===
/** The transparent-colour decode of src/TantechEngine/tmx.cpp: "#RRGGBB" is
    read as a hexadecimal number and split into its three bytes. */
module TmxColor {
  import opened Wrappers
  import opened TmxTypes

  /** The colour of a tileset that declares none: black, not in use. */
  const NoColor: TransparentColor := TransparentColor(0, 0, 0, false)

  const HexDigits: string := "0123456789abcdef"

  predicate IsHexDigit(c: char) {
    ('0' <= c <= '9') || ('a' <= c <= 'f') || ('A' <= c <= 'F')
  }

  function DigitValue(c: char): (d: nat)
    requires IsHexDigit(c)
    ensures d < 16
  {
    if '0' <= c <= '9' then c as int - '0' as int
    else if 'a' <= c <= 'f' then c as int - 'a' as int + 10
    else c as int - 'A' as int + 10
  }

  /** The number a string of hexadecimal digits denotes, most significant
      digit first (what std::stoul(..., 16) computes on such a string). */
  function HexValue(ds: string): nat
    requires forall k :: 0 <= k < |ds| ==> IsHexDigit(ds[k])
  {
    if ds == [] then 0 else HexValue(ds[..|ds| - 1]) * 16 + DigitValue(ds[|ds| - 1])
  }

  /** A well-formed colour: one leading character, which the decode skips
      without looking at it (it is '#' in a Tiled document), followed by
      exactly six hexadecimal digits. */
  predicate IsColorString(s: string) {
    |s| == 7 && forall k :: 1 <= k < 7 ==> IsHexDigit(s[k])
  }

  /** The value of two hexadecimal digits s[k], s[k+1]. */
  function PairValue(s: string, k: nat): (v: nat)
    requires k + 1 < |s| && IsHexDigit(s[k]) && IsHexDigit(s[k + 1])
    ensures v < 256
  {
    DigitValue(s[k]) * 16 + DigitValue(s[k + 1])
  }

  /** Lines 101-108: drop the first character, read the rest as hexadecimal, then
      r = (0xff0000 & v) >> 16, g = (0x00ff00 & v) >> 8, b = 0x0000ff & v,
      written here as the divisions and remainders those masks and shifts
      compute on a non-negative value. */
  function DecodeColorString(s: string): (c: Result<TransparentColor, TmxError>)
    ensures c.Ok? <==> IsColorString(s)
    ensures c.Err? ==> c.error == MalformedColor
    ensures c.Ok? ==>
      && c.value.inUse
      && c.value.r == PairValue(s, 1) && c.value.g == PairValue(s, 3) && c.value.b == PairValue(s, 5)
  {
    if !IsColorString(s) then Err(MalformedColor)
    else
      var v := HexValue(s[1..]);
      ChannelsOfSixDigits(s);
      Ok(TransparentColor(v / 0x10000 % 0x100, v / 0x100 % 0x100, v % 0x100, true))
  }

  /** The bytes of six hexadecimal digits are their three digit pairs. */
  lemma ChannelsOfSixDigits(s: string)
    requires IsColorString(s)
    ensures HexValue(s[1..]) / 0x10000 % 0x100 == PairValue(s, 1)
    ensures HexValue(s[1..]) / 0x100 % 0x100 == PairValue(s, 3)
    ensures HexValue(s[1..]) % 0x100 == PairValue(s, 5)
  {
    SixDigitValue(s);
    ByteSplit(PairValue(s, 1), PairValue(s, 3), PairValue(s, 5));
  }

  lemma SixDigitValue(s: string)
    requires IsColorString(s)
    ensures HexValue(s[1..]) == PairValue(s, 1) * 0x10000 + PairValue(s, 3) * 0x100 + PairValue(s, 5)
  {
    var ds := s[1..];
    var d0, d1, d2 := DigitValue(s[1]), DigitValue(s[2]), DigitValue(s[3]);
    var d3, d4, d5 := DigitValue(s[4]), DigitValue(s[5]), DigitValue(s[6]);
    assert ds[..1][..0] == [];
    assert HexValue(ds[..1]) == d0;
    assert ds[..2][..1] == ds[..1];
    assert HexValue(ds[..2]) == d0 * 16 + d1;
    assert ds[..3][..2] == ds[..2];
    assert HexValue(ds[..3]) == (d0 * 16 + d1) * 16 + d2;
    assert ds[..4][..3] == ds[..3];
    assert HexValue(ds[..4]) == ((d0 * 16 + d1) * 16 + d2) * 16 + d3;
    assert ds[..5][..4] == ds[..4];
    assert HexValue(ds[..5]) == (((d0 * 16 + d1) * 16 + d2) * 16 + d3) * 16 + d4;
    assert ds[..6] == ds;
  }

  lemma ByteSplit(hi: nat, mid: nat, lo: nat)
    requires hi < 256 && mid < 256 && lo < 256
    ensures (hi * 0x10000 + mid * 0x100 + lo) / 0x10000 % 0x100 == hi
    ensures (hi * 0x10000 + mid * 0x100 + lo) / 0x100 % 0x100 == mid
    ensures (hi * 0x10000 + mid * 0x100 + lo) % 0x100 == lo
  {
    var v := hi * 0x10000 + mid * 0x100 + lo;
    assert v / 0x10000 == hi;
    assert v / 0x100 == hi * 0x100 + mid;
  }

  /** The leading character plays no part in the colour. */
  lemma FirstCharacterIgnored(s: string, c: char)
    requires |s| == 7
    ensures DecodeColorString([c] + s[1..]) == DecodeColorString(s)
  {
    var t := [c] + s[1..];
    assert t[1..] == s[1..];
    assert forall k :: 1 <= k < 7 ==> t[k] == s[k];
  }

  function HexChar(n: nat): (c: char)
    requires n < 16
    ensures IsHexDigit(c) && DigitValue(c) == n
  {
    HexDigits[n]
  }

  /** The "#rrggbb" spelling of three bytes. */
  function EncodeColor(r: Byte, g: Byte, b: Byte): (s: string)
    ensures IsColorString(s)
  {
    ['#', HexChar(r / 16), HexChar(r % 16), HexChar(g / 16), HexChar(g % 16),
     HexChar(b / 16), HexChar(b % 16)]
  }

  /** Decoding the spelling of any three bytes gives those bytes back, in use. */
  lemma {:induction false} ColorRoundTrip(r: Byte, g: Byte, b: Byte)
    ensures DecodeColorString(EncodeColor(r, g, b)) == Ok(TransparentColor(r, g, b, true))
  {
    var s := EncodeColor(r, g, b);
    assert PairValue(s, 1) == r && PairValue(s, 3) == g && PairValue(s, 5) == b;
  }
}

=== FILE: tmx_decode.dfy ===
/** initTMX of src/TantechEngine/tmx.cpp over the abstract key/value tree:
    the map header, the tilesets with their terrain types and tiles, and the
    layers with their data and objects.  Each decoder reads its fields in the
    order the C++ evaluates them and stops at the first failure, as the
    exceptions do. */
module TmxDecode {
  import opened Wrappers
  import opened TmxTypes
  import opened TmxEnums
  import opened TmxColor
  import opened LuaTree

  /** When an object can be read: every field has its type, the shape is
      "rectangle", and a gid, when present, is a number. */
  predicate ObjectReadable(v: Value) {
    && GetInt(v, "id").Ok? && GetString(v, "name").Ok? && GetString(v, "type").Ok?
    && GetString(v, "shape") == Ok("rectangle")
    && GetInt(v, "x").Ok? && GetInt(v, "y").Ok? && GetInt(v, "width").Ok? && GetInt(v, "height").Ok?
    && GetInt(v, "rotation").Ok?
    && (Get(v, "gid") == Nil || Get(v, "gid").Num?)
  }

  /** An object of a layer (lines 278-291) or of a tile's object group
      (lines 168-181): the shape must be "rectangle", and an absent gid
      reads as 0. */
  function DecodeObject(v: Value): (r: Result<Object, TmxError>)
    ensures r.Ok? <==> ObjectReadable(v)
    ensures r.Ok? ==> GetString(v, "shape") == Ok("rectangle")
    ensures r.Ok? ==> GetInt(v, "id") == Ok(r.value.id) && GetString(v, "name") == Ok(r.value.name)
    ensures r.Ok? ==> GetString(v, "type") == Ok(r.value.kind)
    ensures r.Ok? ==>
      && GetInt(v, "x") == Ok(r.value.x) && GetInt(v, "y") == Ok(r.value.y)
      && GetInt(v, "width") == Ok(r.value.width) && GetInt(v, "height") == Ok(r.value.height)
      && GetInt(v, "rotation") == Ok(r.value.rotation)
    ensures r.Ok? ==> r.value.visible == AsBool(Get(v, "visible"))
    ensures r.Ok? && Get(v, "gid") == Nil ==> r.value.gid == 0
    ensures r.Ok? && Get(v, "gid") != Nil ==> GetU32(v, "gid") == Ok(r.value.gid)
    ensures GetString(v, "shape").Ok? && GetString(v, "shape").value != "rectangle" ==> r.Err?
  {
    if !v.Table? then Err(ScriptError)
    else
      var gidRef := Get(v, "gid");
      var id :- GetInt(v, "id");
      var name :- GetString(v, "name");
      var kind :- GetString(v, "type");
      var shapeName :- GetString(v, "shape");
      var shape :- ShapeOf(shapeName);
      var x :- GetInt(v, "x");
      var y :- GetInt(v, "y");
      var width :- GetInt(v, "width");
      var height :- GetInt(v, "height");
      var rotation :- GetInt(v, "rotation");
      var gid :- if gidRef == Nil then Ok(0) else AsU32(gidRef);
      var visible := AsBool(Get(v, "visible"));
      Ok(Object(id, name, kind, shape, x, y, width, height, rotation, gid, visible))
  }

  /** An animation frame (lines 218-221): both fields must be numbers. */
  function DecodeFrame(v: Value): (r: Result<Frame, TmxError>)
    ensures r.Ok? <==> GetInt(v, "tileid").Ok? && GetInt(v, "duration").Ok?
    ensures r.Ok? ==> GetInt(v, "tileid") == Ok(r.value.tileid) && GetInt(v, "duration") == Ok(r.value.duration)
  {
    var tileid :- GetInt(v, "tileid");
    var duration :- GetInt(v, "duration");
    Ok(Frame(tileid, duration))
  }

  /** A terrain type of a tileset (lines 134-137): a string name and a
      numeric tile. */
  function DecodeTerrain(v: Value): (r: Result<Terrain, TmxError>)
    ensures r.Ok? <==> GetString(v, "name").Ok? && GetInt(v, "tile").Ok?
    ensures r.Ok? ==> GetString(v, "name") == Ok(r.value.name) && GetInt(v, "tile") == Ok(r.value.tile)
  {
    var name :- GetString(v, "name");
    var tile :- GetInt(v, "tile");
    Ok(Terrain(name, tile))
  }

  /** An array part holding only nils: the table has no integer keys, and
      the key/value iteration never sees one. */
  predicate NoArrayEntries(items: seq<Value>) {
    forall k :: 0 <= k < |items| ==> items[k] == Nil
  }

  /** A tile's custom properties (lines 199-209): every key/value pair of the
      table, absent properties giving the empty map. */
  function DecodeProperties(v: Value): (r: Result<map<string, string>, TmxError>)
    ensures r.Ok? <==> v == Nil || (v.Table? && NoArrayEntries(v.items) && forall k :: k in v.fields ==> v.fields[k].Str?)
    ensures v == Nil ==> r == Ok(map[])
    ensures r.Ok? && v != Nil ==>
      && v.Table? && r.value.Keys == v.fields.Keys
      && forall k :: k in v.fields ==> v.fields[k] == Str(r.value[k])
  {
    if v == Nil then Ok(map[])
    else if v.Table? && NoArrayEntries(v.items) && forall k :: k in v.fields ==> v.fields[k].Str? then
      Ok(map k | k in v.fields :: v.fields[k].s)
    else Err(ScriptError)
  }

  /** Nil entries in the array part are no entries at all: such a table
      reads like the same table without them. */
  lemma NilEntriesAreNoEntries(fields: map<string, Value>, n: nat)
    ensures DecodeProperties(Table(fields, seq(n, _ => Nil))) == DecodeProperties(Table(fields, []))
  {
  }

  function EmptyGroup(kind: GroupKind): ObjectGroup {
    ObjectGroup(kind, "", false, 0, 0, 0, [])
  }

  /** When a tile's object group can be read: it is absent, or a table whose
      fields, when its type is "objectgroup", have their types and whose
      objects are a list of readable objects. */
  predicate ObjectGroupReadable(v: Value) {
    || v == Nil
    || (&& v.Table?
        && (Get(v, "type") == Str("objectgroup") ==>
              && GetString(v, "name").Ok? && GetInt(v, "opacity").Ok?
              && GetInt(v, "offsetx").Ok? && GetInt(v, "offsety").Ok?
              && ListDecodes(Get(v, "objects"), DecodeObject)))
  }

  /** A tile's object group (lines 149-186): absent gives NONE, a group whose
      type is "objectgroup" is read with its objects, any other group stays
      value-initialised. */
  function DecodeObjectGroup(v: Value): (r: Result<ObjectGroup, TmxError>)
    ensures r.Ok? <==> ObjectGroupReadable(v)
    ensures v == Nil ==> r == Ok(EmptyGroup(NoGroup))
    ensures v.Table? && Get(v, "type") != Str("objectgroup") ==> r == Ok(EmptyGroup(ValueInitialised))
    ensures r.Ok? && v != Nil ==> (Get(v, "type") == Str("objectgroup") <==> r.value.kind == Group)
    ensures r.Ok? && r.value.kind != Group ==> r.value.objects == []
    ensures r.Ok? && r.value.kind == Group ==>
      && GetString(v, "name") == Ok(r.value.name)
      && r.value.visible == AsBool(Get(v, "visible"))
      && GetInt(v, "opacity") == Ok(r.value.opacity)
      && GetInt(v, "offsetx") == Ok(r.value.offsetx) && GetInt(v, "offsety") == Ok(r.value.offsety)
      && exists items :: ReadList(Get(v, "objects")) == Ok(items) && MapAll(items, DecodeObject) == Ok(r.value.objects)
    ensures v != Nil && Get(v, "type") == Str("objectgroup") && !Get(v, "objects").Table? ==> r.Err?
  {
    if v == Nil then Ok(EmptyGroup(NoGroup))
    else if !v.Table? then Err(ScriptError)
    else
      var groupType := Get(v, "type");
      if groupType == Str("objectgroup") then
        var name :- GetString(v, "name");
        var visible := AsBool(Get(v, "visible"));
        var opacity :- GetInt(v, "opacity");
        var offsetx :- GetInt(v, "offsetx");
        var offsety :- GetInt(v, "offsety");
        var objectsRef := Get(v, "objects");
        var items :- ReadList(objectsRef);
        var objects :- MapAll(items, DecodeObject);
        Ok(ObjectGroup(Group, name, visible, opacity, offsetx, offsety, objects))
      else
        Ok(EmptyGroup(ValueInitialised))
  }

  /** When a tile can be read: its object group and properties decode, its
      id is a number, and its animation and terrain lists, when present,
      convert entry by entry. */
  predicate TileReadable(v: Value) {
    && v.Table?
    && DecodeObjectGroup(Get(v, "objectGroup")).Ok? && GetInt(v, "id").Ok?
    && DecodeProperties(Get(v, "properties")).Ok?
    && OptionalListDecodes(Get(v, "animation"), DecodeFrame)
    && OptionalListDecodes(Get(v, "terrain"), AsU32)
  }

  /** A tile (lines 146-235).  Absent animation and terrain lists read as
      empty. */
  function DecodeTile(v: Value): (r: Result<Tile, TmxError>)
    ensures r.Ok? <==> TileReadable(v)
    ensures r.Ok? ==> v.Table?
    ensures r.Ok? && Get(v, "animation") == Nil ==> r.value.animation == []
    ensures r.Ok? && Get(v, "terrain") == Nil ==> r.value.terrain == []
    ensures r.Ok? && Get(v, "properties") == Nil ==> r.value.properties == map[]
    ensures r.Ok? && Get(v, "objectGroup") == Nil ==> r.value.objectGroup.kind == NoGroup
    ensures r.Ok? ==>
      && GetInt(v, "id") == Ok(r.value.id)
      && DecodeObjectGroup(Get(v, "objectGroup")) == Ok(r.value.objectGroup)
      && DecodeProperties(Get(v, "properties")) == Ok(r.value.properties)
    ensures r.Ok? && Get(v, "animation") != Nil ==>
      exists items :: ReadList(Get(v, "animation")) == Ok(items) && MapAll(items, DecodeFrame) == Ok(r.value.animation)
    ensures r.Ok? && Get(v, "terrain") != Nil ==>
      exists items :: ReadList(Get(v, "terrain")) == Ok(items) && MapAll(items, AsU32) == Ok(r.value.terrain)
  {
    if !v.Table? then Err(ScriptError)
    else
      var groupRef := Get(v, "objectGroup");
      var group :- DecodeObjectGroup(groupRef);
      var id :- GetInt(v, "id");
      var propertiesRef := Get(v, "properties");
      var properties :- DecodeProperties(propertiesRef);
      var animationRef := Get(v, "animation");
      var frameItems :- ReadOptionalList(animationRef);
      var animation :- MapAll(frameItems, DecodeFrame);
      var terrainRef := Get(v, "terrain");
      var terrainItems :- ReadOptionalList(terrainRef);
      var terrain :- MapAll(terrainItems, AsU32);
      Ok(Tile(id, properties, group, animation, terrain))
  }

  /** A tileset's transparent colour (lines 98-109): absent gives black, not
      in use; present must be "#RRGGBB". */
  function DecodeTransparentColor(v: Value): (r: Result<TransparentColor, TmxError>)
    ensures v == Nil ==> r == Ok(NoColor)
    ensures v.Str? ==> r == DecodeColorString(v.s)
    ensures r.Ok? && v != Nil ==> r.value.inUse
    ensures v != Nil && !v.Str? ==> r == Err(ScriptError)
  {
    if v == Nil then Ok(NoColor)
    else
      var hex :- AsString(v);
      DecodeColorString(hex)
  }

  /** When a tileset can be read: every field has its type, the colour
      decodes, and the terrain-type and tile lists are present and convert
      entry by entry. */
  predicate TilesetReadable(v: Value) {
    && v.Table?
    && DecodeTransparentColor(Get(v, "transparentcolor")).Ok?
    && GetString(v, "name").Ok? && GetU32(v, "firstgid").Ok?
    && GetInt(v, "tilewidth").Ok? && GetInt(v, "tileheight").Ok?
    && GetInt(v, "spacing").Ok? && GetInt(v, "margin").Ok?
    && GetString(v, "image").Ok? && GetInt(v, "imagewidth").Ok? && GetInt(v, "imageheight").Ok?
    && GetInt(Get(v, "tileoffset"), "x").Ok? && GetInt(Get(v, "tileoffset"), "y").Ok?
    && GetU32(v, "tilecount").Ok?
    && ListDecodes(Get(v, "terrains"), DecodeTerrain)
    && ListDecodes(Get(v, "tiles"), DecodeTile)
  }

  /** A tileset (lines 93-239); its image path is the document's directory,
      a slash, and the image name. */
  function DecodeTileset(meta: Meta, v: Value): (r: Result<Tileset, TmxError>)
    ensures r.Ok? <==> TilesetReadable(v)
    ensures r.Ok? ==>
      && GetInt(v, "tilewidth") == Ok(r.value.tilewidth) && GetInt(v, "tileheight") == Ok(r.value.tileheight)
      && GetInt(v, "spacing") == Ok(r.value.spacing) && GetInt(v, "margin") == Ok(r.value.margin)
      && GetInt(v, "imagewidth") == Ok(r.value.imagewidth) && GetInt(v, "imageheight") == Ok(r.value.imageheight)
    ensures r.Ok? ==>
      GetInt(Get(v, "tileoffset"), "x") == Ok(r.value.tileoffset.x) && GetInt(Get(v, "tileoffset"), "y") == Ok(r.value.tileoffset.y)
    ensures r.Ok? ==> exists image :: GetString(v, "image") == Ok(image) && r.value.image == meta.path + "/" + image
    ensures r.Ok? && Get(v, "transparentcolor") == Nil ==> r.value.transparentcolor == NoColor
    ensures r.Ok? ==> GetU32(v, "firstgid") == Ok(r.value.firstgid) && GetU32(v, "tilecount") == Ok(r.value.tilecount)
    ensures r.Ok? ==> GetString(v, "name") == Ok(r.value.name)
    ensures r.Ok? ==> DecodeTransparentColor(Get(v, "transparentcolor")) == Ok(r.value.transparentcolor)
    ensures r.Ok? ==>
      exists items :: ReadList(Get(v, "terrains")) == Ok(items) && MapAll(items, DecodeTerrain) == Ok(r.value.terrains)
    ensures r.Ok? ==>
      exists items :: ReadList(Get(v, "tiles")) == Ok(items) && MapAll(items, DecodeTile) == Ok(r.value.tiles)
    ensures Get(v, "terrains") == Nil || Get(v, "tiles") == Nil ==> r.Err?
  {
    if !v.Table? then Err(ScriptError)
    else
      var offsetRef := Get(v, "tileoffset");
      var colorRef := Get(v, "transparentcolor");
      var color :- DecodeTransparentColor(colorRef);
      var name :- GetString(v, "name");
      var firstgid :- GetU32(v, "firstgid");
      var tilewidth :- GetInt(v, "tilewidth");
      var tileheight :- GetInt(v, "tileheight");
      var spacing :- GetInt(v, "spacing");
      var margin :- GetInt(v, "margin");
      var image :- GetString(v, "image");
      var imagewidth :- GetInt(v, "imagewidth");
      var imageheight :- GetInt(v, "imageheight");
      var offsetx :- GetInt(offsetRef, "x");
      var offsety :- GetInt(offsetRef, "y");
      var tilecount :- GetU32(v, "tilecount");
      var terrainsRef := Get(v, "terrains");
      var terrainItems :- ReadList(terrainsRef);
      var terrains :- MapAll(terrainItems, DecodeTerrain);
      var tilesRef := Get(v, "tiles");
      var tileItems :- ReadList(tilesRef);
      var tiles :- MapAll(tileItems, DecodeTile);
      Ok(Tileset(name, firstgid, tilewidth, tileheight, spacing, margin,
                 meta.path + "/" + image, imagewidth, imageheight, color,
                 TileOffset(offsetx, offsety), terrains, tilecount, tiles))
  }

  /** Reads a grid field of a layer: object groups have none, and take 0
      without looking at the document (lines 254-257). */
  function GridField(v: Value, t: LayerType, name: string): Result<int, TmxError> {
    if t == ObjectGroupLayer then Ok(0) else GetInt(v, name)
  }

  /** The layer-construction rule: an object group has x = y = width =
      height = 0 whatever the document holds; a tile layer copies them. */
  predicate GridRule(v: Value, l: Layer) {
    && (l.layerType == ObjectGroupLayer ==> l.x == 0 && l.y == 0 && l.width == 0 && l.height == 0)
    && (l.layerType == TileLayer ==>
          && GetInt(v, "x") == Ok(l.x) && GetInt(v, "y") == Ok(l.y)
          && GetInt(v, "width") == Ok(l.width) && GetInt(v, "height") == Ok(l.height))
  }

  /** When a layer can be read: its type is one of the two layer types, a
      tile layer's grid fields are numbers, the other fields have their
      types, and its data and objects, when present, convert entry by entry. */
  predicate LayerReadable(v: Value) {
    && GetString(v, "type").Ok? && GetString(v, "type").value in {"tilelayer", "objectgroup"}
    && GetString(v, "name").Ok?
    && (GetString(v, "type") == Ok("tilelayer") ==>
          GetInt(v, "x").Ok? && GetInt(v, "y").Ok? && GetInt(v, "width").Ok? && GetInt(v, "height").Ok?)
    && GetInt(v, "opacity").Ok? && GetInt(v, "offsetx").Ok? && GetInt(v, "offsety").Ok?
    && OptionalListDecodes(Get(v, "data"), AsU32)
    && OptionalListDecodes(Get(v, "objects"), DecodeObject)
  }

  /** A layer (lines 247-297).  The type must be "tilelayer" or
      "objectgroup", and is never guessed. */
  function DecodeLayer(v: Value): (r: Result<Layer, TmxError>)
    ensures r.Ok? <==> LayerReadable(v)
    ensures r.Ok? ==> GetString(v, "name") == Ok(r.value.name) && r.value.visible == AsBool(Get(v, "visible"))
    ensures r.Ok? ==>
      && GetInt(v, "opacity") == Ok(r.value.opacity)
      && GetInt(v, "offsetx") == Ok(r.value.offsetx) && GetInt(v, "offsety") == Ok(r.value.offsety)
    ensures r.Ok? ==> GetString(v, "type") == Ok(LayerTypeName(r.value.layerType))
    ensures r.Ok? ==> GridRule(v, r.value)
    ensures GetString(v, "type").Ok? && GetString(v, "type").value !in {"tilelayer", "objectgroup"}
      ==> r == Err(UnsupportedLayerType)
    ensures r.Ok? && Get(v, "data") == Nil ==> r.value.data == []
    ensures r.Ok? && Get(v, "objects") == Nil ==> r.value.objects == []
    ensures r.Ok? && Get(v, "objects") != Nil ==>
      exists items :: ReadList(Get(v, "objects")) == Ok(items) && MapAll(items, DecodeObject) == Ok(r.value.objects)
    ensures r.Ok? && Get(v, "data") != Nil ==>
      exists items :: ReadList(Get(v, "data")) == Ok(items) && MapAll(items, AsU32) == Ok(r.value.data)
  {
    var typeName :- GetString(v, "type");
    var t :- LayerTypeOf(typeName);
    var name :- GetString(v, "name");
    var x :- GridField(v, t, "x");
    var y :- GridField(v, t, "y");
    var width :- GridField(v, t, "width");
    var height :- GridField(v, t, "height");
    var visible := AsBool(Get(v, "visible"));
    var opacity :- GetInt(v, "opacity");
    var offsetx :- GetInt(v, "offsetx");
    var offsety :- GetInt(v, "offsety");
    var dataRef := Get(v, "data");
    var dataItems :- ReadOptionalList(dataRef);
    var data :- MapAll(dataItems, AsU32);
    var objectsRef := Get(v, "objects");
    var objectItems :- ReadOptionalList(objectsRef);
    var objects :- MapAll(objectItems, DecodeObject);
    Ok(Layer(t, name, x, y, width, height, visible, opacity, offsetx, offsety, data, objects))
  }

  /** What the grid fields of an object-group layer hold in the document
      makes no difference to the layer it decodes to. */
  lemma ObjectGroupIgnoresGrid(v: Value, x: Value, y: Value, width: Value, height: Value)
    requires v.Table? && GetString(v, "type") == Ok("objectgroup")
    ensures DecodeLayer(Table(v.fields["x" := x]["y" := y]["width" := width]["height" := height], v.items))
         == DecodeLayer(v)
  {
    var w := Table(v.fields["x" := x]["y" := y]["width" := width]["height" := height], v.items);
    SameField(v, w, "type");
    SameField(v, w, "name");
    SameField(v, w, "visible");
    SameField(v, w, "opacity");
    SameField(v, w, "offsetx");
    SameField(v, w, "offsety");
    SameField(v, w, "data");
    SameField(v, w, "objects");
  }

  /** Two tables that agree on a key read the same field there. */
  lemma SameField(v: Value, w: Value, name: string)
    requires v.Table? && w.Table? && (name in v.fields <==> name in w.fields)
    requires name in v.fields ==> v.fields[name] == w.fields[name]
    ensures Get(w, name) == Get(v, name)
    ensures GetInt(w, name) == GetInt(v, name) && GetString(w, name) == GetString(v, name)
  {
  }

  /** The tilesets of the document (lines 93-240): the loop indexes the list
      without checking it, so an absent list is refused; each entry is
      decoded in order, the first failure ending the whole document. */
  function DecodeTilesets(meta: Meta, v: Value): (r: Result<seq<Tileset>, TmxError>)
    ensures r.Ok? <==> ListDecodes(v, TilesetOf(meta))
    ensures v == Nil ==> r.Err?
    ensures r.Ok? ==>
      exists items :: ReadList(v) == Ok(items) && |items| == |r.value|
        && forall k :: 0 <= k < |items| ==> DecodeTileset(meta, items[k]) == Ok(r.value[k])
    ensures r.Ok? ==> forall k :: 0 <= k < |r.value| ==>
      |r.value[k].image| > |meta.path| && r.value[k].image[..|meta.path| + 1] == meta.path + "/"
  {
    var items :- ReadList(v);
    var r := MapAll(items, TilesetOf(meta));
    if r.Ok? then TilesetImagesUnderPath(meta, items, r.value); r else r
  }

  /** Tilesets read from the document all have their images under its
      directory. */
  lemma TilesetImagesUnderPath(meta: Meta, items: seq<Value>, ts: seq<Tileset>)
    requires |ts| == |items| && forall k :: 0 <= k < |items| ==> TilesetOf(meta)(items[k]) == Ok(ts[k])
    ensures forall k :: 0 <= k < |ts| ==>
      |ts[k].image| > |meta.path| && ts[k].image[..|meta.path| + 1] == meta.path + "/"
  {
    forall k | 0 <= k < |ts|
      ensures |ts[k].image| > |meta.path| && ts[k].image[..|meta.path| + 1] == meta.path + "/"
    {
      assert DecodeTileset(meta, items[k]) == Ok(ts[k]);
    }
  }

  /** DecodeTileset for the tilesets of the document under `meta`. */
  function TilesetOf(meta: Meta): Value -> Result<Tileset, TmxError> {
    (t: Value) => DecodeTileset(meta, t)
  }

  /** The layers of the document (lines 245-298): an absent list gives no
      layers; otherwise each entry is decoded in order. */
  function DecodeLayers(v: Value): (r: Result<seq<Layer>, TmxError>)
    ensures r.Ok? <==> OptionalListDecodes(v, DecodeLayer)
    ensures v == Nil ==> r == Ok([])
    ensures r.Ok? && v != Nil ==>
      exists items :: ReadList(v) == Ok(items) && MapAll(items, DecodeLayer) == Ok(r.value)
    ensures r.Ok? ==> forall k :: 0 <= k < |r.value| ==>
      r.value[k].layerType == ObjectGroupLayer ==>
        r.value[k].x == 0 && r.value[k].y == 0 && r.value[k].width == 0 && r.value[k].height == 0
  {
    var items :- ReadOptionalList(v);
    MapAll(items, DecodeLayer)
  }

  /** When a document can be read: the orientation and render order are the
      supported ones, the header's sizes are numbers, and the tilesets and
      layers decode. */
  predicate TmxReadable(meta: Meta, root: Value) {
    && GetString(root, "orientation") == Ok("orthogonal")
    && GetString(root, "renderorder") == Ok("right-down")
    && GetInt(root, "width").Ok? && GetInt(root, "height").Ok?
    && GetInt(root, "tilewidth").Ok? && GetInt(root, "tileheight").Ok? && GetInt(root, "nextobjectid").Ok?
    && DecodeTilesets(meta, Get(root, "tilesets")).Ok?
    && DecodeLayers(Get(root, "layers")).Ok?
  }

  /** initTMX (lines 81-300): the header, then the tilesets, then the layers. */
  function DecodeTmx(meta: Meta, root: Value): (r: Result<Tmx, TmxError>)
    ensures TmxReadable(meta, root) ==> r.Ok?
    ensures r.Ok? ==> r.value.meta == meta
    ensures r.Ok? ==>
      && GetInt(root, "tilewidth") == Ok(r.value.tilewidth) && GetInt(root, "tileheight") == Ok(r.value.tileheight)
      && GetInt(root, "nextobjectid") == Ok(r.value.nextobjectid)
    ensures r.Ok? ==> GetString(root, "orientation") == Ok("orthogonal")
    ensures r.Ok? ==> GetString(root, "renderorder") == Ok("right-down")
    ensures r.Ok? ==> GetInt(root, "width") == Ok(r.value.width) && GetInt(root, "height") == Ok(r.value.height)
    ensures r.Ok? ==> DecodeTilesets(meta, Get(root, "tilesets")) == Ok(r.value.tilesets)
    ensures r.Ok? ==> DecodeLayers(Get(root, "layers")) == Ok(r.value.layers)
    ensures Get(root, "tilesets") == Nil ==> r.Err?
  {
    var orientationName :- GetString(root, "orientation");
    var orientation :- OrientationOf(orientationName);
    var renderOrderName :- GetString(root, "renderorder");
    var renderorder :- RenderOrderOf(renderOrderName);
    var width :- GetInt(root, "width");
    var height :- GetInt(root, "height");
    var tilewidth :- GetInt(root, "tilewidth");
    var tileheight :- GetInt(root, "tileheight");
    var nextobjectid :- GetInt(root, "nextobjectid");
    var tilesets :- DecodeTilesets(meta, Get(root, "tilesets"));
    var layers :- DecodeLayers(Get(root, "layers"));
    Ok(Tmx(meta, orientation, renderorder, width, height, tilewidth, tileheight,
           nextobjectid, tilesets, layers))
  }

  /** initTMX accepts a document exactly when it is readable. */
  lemma DecodeTmxExactly(meta: Meta, root: Value)
    ensures DecodeTmx(meta, root).Ok? <==> TmxReadable(meta, root)
  {
  }

  /** Every document initTMX accepts has only object-group layers with a
      zero grid, and only tileset images under the document's directory. */
  lemma DecodedDocumentShape(meta: Meta, root: Value)
    requires DecodeTmx(meta, root).Ok?
    ensures var doc := DecodeTmx(meta, root).value;
      && (forall k :: 0 <= k < |doc.layers| ==> doc.layers[k].layerType == ObjectGroupLayer ==>
            doc.layers[k].x == 0 && doc.layers[k].y == 0 && doc.layers[k].width == 0 && doc.layers[k].height == 0)
      && (forall k :: 0 <= k < |doc.tilesets| ==>
            |doc.tilesets[k].image| > |meta.path| && doc.tilesets[k].image[..|meta.path| + 1] == meta.path + "/")
      && (Get(root, "layers") == Nil ==> doc.layers == [])
  {
  }
}

=== FILE: tmx_enums.dfy ===
/** The four enumeration decoders of src/TantechEngine/tmx.cpp.  Each looks its
    string up in a fixed table and throws when the string is not a key. */
module TmxEnums {
  import opened Wrappers
  import opened TmxTypes

  const ShapeTable: map<string, Shape> := map["rectangle" := Rectangle]

  const LayerTypeTable: map<string, LayerType> :=
    map["tilelayer" := TileLayer, "objectgroup" := ObjectGroupLayer]

  const OrientationTable: map<string, Orientation> := map["orthogonal" := Orthogonal]

  const RenderOrderTable: map<string, RenderOrder> := map["right-down" := RightDown]

  /** getShapeEnum */
  function ShapeOf(s: string): (r: Result<Shape, TmxError>)
    ensures r.Ok? <==> s == "rectangle"
    ensures r.Err? ==> r.error == UnsupportedShape
  {
    if s in ShapeTable then Ok(ShapeTable[s]) else Err(UnsupportedShape)
  }

  /** getLayerType */
  function LayerTypeOf(s: string): (r: Result<LayerType, TmxError>)
    ensures r == Ok(TileLayer) <==> s == "tilelayer"
    ensures r == Ok(ObjectGroupLayer) <==> s == "objectgroup"
    ensures r.Err? <==> s != "tilelayer" && s != "objectgroup"
    ensures r.Err? ==> r.error == UnsupportedLayerType
  {
    if s in LayerTypeTable then Ok(LayerTypeTable[s]) else Err(UnsupportedLayerType)
  }

  /** getOrientation */
  function OrientationOf(s: string): (r: Result<Orientation, TmxError>)
    ensures r.Ok? <==> s == "orthogonal"
    ensures r.Err? ==> r.error == UnsupportedOrientation
  {
    if s in OrientationTable then Ok(OrientationTable[s]) else Err(UnsupportedOrientation)
  }

  /** getRenderOrder */
  function RenderOrderOf(s: string): (r: Result<RenderOrder, TmxError>)
    ensures r.Ok? <==> s == "right-down"
    ensures r.Err? ==> r.error == UnsupportedRenderOrder
  {
    if s in RenderOrderTable then Ok(RenderOrderTable[s]) else Err(UnsupportedRenderOrder)
  }

  /** The document spelling of each layer type. */
  function LayerTypeName(t: LayerType): string {
    match t
    case TileLayer => "tilelayer"
    case ObjectGroupLayer => "objectgroup"
  }

  /** Every enumerator has exactly one spelling, and decoding that spelling
      gives the enumerator back. */
  lemma DecodersInvertNames(t: LayerType)
    ensures LayerTypeOf(LayerTypeName(t)) == Ok(t)
    ensures ShapeOf("rectangle") == Ok(Rectangle)
    ensures OrientationOf("orthogonal") == Ok(Orthogonal)
    ensures RenderOrderOf("right-down") == Ok(RightDown)
  {
  }
}

=== FILE: tmx_meta.dfy ===
/** TMX::Meta(pathfile) of src/TantechEngine/tmx.cpp: split a combined
    "directory/file" string into the directory and the file name, with
    std::string's find_last_of, substr and npos spelled out. */
module TmxMeta {
  import opened Wrappers
  import opened TmxTypes

  /** size_t is 64 bits wide; npos is its largest value. */
  const SizeT: nat := 0x1_0000_0000_0000_0000
  const NPos: nat := SizeT - 1

  predicate IsSeparator(c: char) {
    c == '/' || c == '\\'
  }

  /** find_last_of("\\/"): the position of the last separator, npos if the
      string has none. */
  function FindLastSeparator(s: string): (p: nat)
    requires |s| < NPos
    ensures p == NPos || (p < |s| && IsSeparator(s[p]))
    ensures p == NPos ==> forall k :: 0 <= k < |s| ==> !IsSeparator(s[k])
    ensures p != NPos ==> forall k :: p < k < |s| ==> !IsSeparator(s[k])
  {
    if s == [] then NPos
    else if IsSeparator(s[|s| - 1]) then |s| - 1
    else FindLastSeparator(s[..|s| - 1])
  }

  /** substr(pos, count): at most `count` characters from `pos` on. */
  function Substr(s: string, pos: nat, count: nat): (r: string)
    requires pos <= |s|
    ensures |r| == (if count < |s| - pos then count else |s| - pos)
    ensures r == s[pos..pos + |r|]
  {
    if count < |s| - pos then s[pos..pos + count] else s[pos..]
  }

  /** The path with every backslash turned into a slash. */
  function Slashed(s: string): (r: string)
    ensures |r| == |s|
  {
    seq(|s|, k requires 0 <= k < |s| => if s[k] == '\\' then '/' else s[k])
  }

  /** Lines 307-321.  file is what follows the last separator (npos + 1
      wraps to 0, so with no separator it is the whole string); an empty
      file is refused.  path is what precedes the last separator (the whole
      string when there is none); when it equals file it becomes "./",
      otherwise its backslashes become slashes. */
  function MetaOf(pathfile: string): (r: Result<Meta, TmxError>)
    requires |pathfile| < NPos
    ensures r.Err? ==> r.error == BadFilename
    ensures r.Ok? ==> r.value.file != [] && |r.value.file| <= |pathfile|
    ensures r.Ok? ==> r.value.path == "./" || |r.value.path| + |r.value.file| < |pathfile|
  {
    var sep := FindLastSeparator(pathfile);
    var file := Substr(pathfile, (sep + 1) % SizeT, |pathfile|);
    if file == "" then Err(BadFilename)
    else
      var path := Substr(pathfile, 0, sep);
      if path == file then Ok(Meta("./", file)) else Ok(Meta(Slashed(path), file))
  }

  predicate NoSeparator(s: string) {
    forall k :: 0 <= k < |s| ==> !IsSeparator(s[k])
  }

  /** The file part: it contains no separator, it ends the input, and it is
      either the whole input or preceded by a separator.  It is refused
      exactly when the input ends with a separator or is empty. */
  lemma MetaFileRule(pathfile: string)
    requires |pathfile| < NPos
    ensures MetaOf(pathfile).Err? <==> pathfile == [] || IsSeparator(pathfile[|pathfile| - 1])
    ensures MetaOf(pathfile).Err? ==> MetaOf(pathfile).error == BadFilename
    ensures MetaOf(pathfile).Ok? ==>
      var file := MetaOf(pathfile).value.file;
      && file != []
      && NoSeparator(file)
      && |file| <= |pathfile| && pathfile[|pathfile| - |file|..] == file
      && (|file| == |pathfile| || IsSeparator(pathfile[|pathfile| - |file| - 1]))
  {
    var sep := FindLastSeparator(pathfile);
    if sep != NPos {
      assert (sep + 1) % SizeT == sep + 1;
    }
  }

  /** A separator with none after it is the one find_last_of finds. */
  lemma LastSeparatorIsFound(s: string, p: nat)
    requires |s| < NPos && p < |s| && IsSeparator(s[p]) && NoSeparator(s[p + 1..])
    ensures FindLastSeparator(s) == p
  {
  }

  /** With no separator the whole input is the file and the path is "./". */
  lemma MetaWithoutSeparator(pathfile: string)
    requires 0 < |pathfile| < NPos && NoSeparator(pathfile)
    ensures MetaOf(pathfile) == Ok(Meta("./", pathfile))
  {
  }

  /** With p the last separator: the file is what follows it; the path is
      "./" when the text before it equals the file, and otherwise that text
      with every backslash replaced by a slash. */
  lemma MetaPathRule(pathfile: string, p: nat)
    requires |pathfile| < NPos && MetaOf(pathfile).Ok?
    requires p < |pathfile| && IsSeparator(pathfile[p]) && NoSeparator(pathfile[p + 1..])
    ensures MetaOf(pathfile).value.file == pathfile[p + 1..]
    ensures pathfile[..p] == pathfile[p + 1..] ==> MetaOf(pathfile).value.path == "./"
    ensures pathfile[..p] != pathfile[p + 1..] ==>
      var path := MetaOf(pathfile).value.path;
      && |path| == p
      && forall k :: 0 <= k < p ==> path[k] == (if pathfile[k] == '\\' then '/' else pathfile[k])
  {
    MetaSplitsAt(pathfile, p);
  }

  /** The split at a known last separator p, with the substr calls resolved. */
  lemma MetaSplitsAt(pathfile: string, p: nat)
    requires |pathfile| < NPos
    requires p < |pathfile| && IsSeparator(pathfile[p]) && NoSeparator(pathfile[p + 1..])
    ensures MetaOf(pathfile) ==
      if pathfile[p + 1..] == [] then Err(BadFilename)
      else if pathfile[..p] == pathfile[p + 1..] then Ok(Meta("./", pathfile[p + 1..]))
      else Ok(Meta(Slashed(pathfile[..p]), pathfile[p + 1..]))
  {
    LastSeparatorIsFound(pathfile, p);
    assert (p + 1) % SizeT == p + 1;
  }

  /** Whatever the input, the path the splitter produces holds no backslash. */
  lemma MetaPathHasNoBackslash(pathfile: string)
    requires |pathfile| < NPos && MetaOf(pathfile).Ok?
    ensures forall k :: 0 <= k < |MetaOf(pathfile).value.path| ==> MetaOf(pathfile).value.path[k] != '\\'
  {
  }

  /** A nested path splits at its last separator, slash or backslash, and
      the backslashes of its path become slashes. */
  lemma MetaNestedExample()
    ensures MetaOf("a/b/c.tmx") == Ok(Meta("a/b", "c.tmx"))
    ensures MetaOf("a\\b\\c.tmx") == Ok(Meta("a/b", "c.tmx"))
  {
    var s := "a/b/c.tmx";
    assert s[4..] == "c.tmx";
    LastSeparatorIsFound(s, 3);
    assert Substr(s, (3 + 1) % SizeT, |s|) == "c.tmx";
    assert Substr(s, 0, 3) == "a/b";
    assert Slashed("a/b") == "a/b";
    var t := "a\\b\\c.tmx";
    assert t[4..] == "c.tmx";
    LastSeparatorIsFound(t, 3);
    assert Substr(t, (3 + 1) % SizeT, |t|) == "c.tmx";
    assert Substr(t, 0, 3) == "a\\b";
    assert Slashed("a\\b") == "a/b";
  }

  /** A bare file name gets the path "./". */
  lemma MetaBareExample()
    ensures MetaOf("c.tmx") == Ok(Meta("./", "c.tmx"))
  {
    MetaWithoutSeparator("c.tmx");
  }

  /** A path that ends with a separator names no file. */
  lemma MetaDirectoryExample()
    ensures MetaOf("a/b/") == Err(BadFilename)
  {
    MetaFileRule("a/b/");
  }

  /** A path equal to its file name becomes "./". */
  lemma MetaSameNameExample()
    ensures MetaOf("x/x") == Ok(Meta("./", "x"))
  {
    var s := "x/x";
    assert s[2..] == "x";
    LastSeparatorIsFound(s, 1);
    assert Substr(s, 0, 1) == "x";
  }

  /** The for_each at lines 318-320: rewrites the backslashes of a character
      buffer in place. */
  method ReplaceBackslashes(a: array<char>)
    modifies a
    ensures a[..] == Slashed(old(a[..]))
  {
    var i := 0;
    while i < a.Length
      invariant 0 <= i <= a.Length
      invariant forall k :: 0 <= k < i ==> a[k] == (if old(a[k]) == '\\' then '/' else old(a[k]))
      invariant forall k :: i <= k < a.Length ==> a[k] == old(a[k])
    {
      if a[i] == '\\' {
        a[i] := '/';
      }
      i := i + 1;
    }
  }

  /** The constructor itself: split, refuse an empty file name, then either
      replace the path by "./" or rewrite it in place. */
  method NewMeta(pathfile: string) returns (r: Result<Meta, TmxError>)
    requires |pathfile| < NPos
    ensures r == MetaOf(pathfile)
  {
    var sep := FindLastSeparator(pathfile);
    var file := Substr(pathfile, (sep + 1) % SizeT, |pathfile|);
    if file == "" {
      return Err(BadFilename);
    }
    var path := Substr(pathfile, 0, sep);
    if path == file {
      return Ok(Meta("./", file));
    }
    var buffer := new char[|path|](k requires 0 <= k < |path| => path[k]);
    assert buffer[..] == path;
    ReplaceBackslashes(buffer);
    r := Ok(Meta(buffer[..], file));
  }
}

=== FILE: tmx_types.dfy ===
/** The in-memory tile-map document that initTMX in src/TantechEngine/tmx.cpp
    fills in: map header, tilesets with their tiles, and layers with their
    placed objects.  Numeric fields the document declares unsigned are `U32`;
    the remaining numeric fields are integers. */
module TmxTypes {

  const U32: nat := 0x1_0000_0000

  /** C++ `unsigned` (32 bits). */
  type U32Value = x: int | 0 <= x < U32

  /** The errors the model raises, one per exception the code throws. */
  datatype TmxError =
    | UnsupportedShape          // getShapeEnum
    | UnsupportedLayerType      // getLayerType
    | UnsupportedOrientation    // getOrientation
    | UnsupportedRenderOrder    // getRenderOrder
    | MalformedColor            // std::stoul on a transparent colour that is not #RRGGBB
    | BadFilename               // TMX::Meta(pathfile) with nothing after the last separator
    | NoTilesetForGid           // getTilesetIndex: std::out_of_range
    | ScriptError               // the scripting runtime refuses an index or a conversion

  datatype Shape = Rectangle
  datatype LayerType = TileLayer | ObjectGroupLayer
  datatype Orientation = Orthogonal
  datatype RenderOrder = RightDown

  type Byte = x: int | 0 <= x < 256

  datatype TransparentColor = TransparentColor(r: Byte, g: Byte, b: Byte, inUse: bool)

  /** TMX::Tileset::Tile::ObjectGroup::Object */
  datatype Object = Object(
    id: int, name: string, kind: string, shape: Shape,
    x: int, y: int, width: int, height: int, rotation: int,
    gid: U32Value, visible: bool)

  /** The three ways initTMX fills a tile's object group: absent (NONE), a
      group whose type is "objectgroup" (OBJECTGROUP), and any other group,
      which stays value-initialised. */
  datatype GroupKind = NoGroup | Group | ValueInitialised

  datatype ObjectGroup = ObjectGroup(
    kind: GroupKind, name: string, visible: bool, opacity: int,
    offsetx: int, offsety: int, objects: seq<Object>)

  datatype Frame = Frame(tileid: int, duration: int)

  datatype Tile = Tile(
    id: int, properties: map<string, string>, objectGroup: ObjectGroup,
    animation: seq<Frame>, terrain: seq<U32Value>)

  datatype Terrain = Terrain(name: string, tile: int)

  datatype TileOffset = TileOffset(x: int, y: int)

  datatype Tileset = Tileset(
    name: string, firstgid: U32Value, tilewidth: int, tileheight: int,
    spacing: int, margin: int, image: string, imagewidth: int, imageheight: int,
    transparentcolor: TransparentColor, tileoffset: TileOffset,
    terrains: seq<Terrain>, tilecount: U32Value, tiles: seq<Tile>)

  datatype Layer = Layer(
    layerType: LayerType, name: string, x: int, y: int, width: int, height: int,
    visible: bool, opacity: int, offsetx: int, offsety: int,
    data: seq<U32Value>, objects: seq<Object>)

  /** TMX::Meta: the directory and the file name of the document. */
  datatype Meta = Meta(path: string, file: string)

  datatype Tmx = Tmx(
    meta: Meta, orientation: Orientation, renderorder: RenderOrder,
    width: int, height: int, tilewidth: int, tileheight: int, nextobjectid: int,
    tilesets: seq<Tileset>, layers: seq<Layer>)
}

=== FILE: wrappers.dfy ===
/** Option and Result, the failure-compatible carriers the rest of the model
    uses in place of the C++ exceptions, and MapAll, the push_back loop that
    stops at the first element whose decoding throws. */
module Wrappers {

  datatype Option<+T> = None | Some(value: T)

  datatype Result<+T, +E> = Ok(value: T) | Err(error: E) {

    predicate IsFailure() {
      Err?
    }

    function PropagateFailure<U>(): Result<U, E>
      requires Err?
    {
      Err(error)
    }

    function Extract(): T
      requires Ok?
    {
      value
    }
  }

  /** Every element converts without failing. */
  predicate AllOk<A, B, E>(xs: seq<A>, f: A -> Result<B, E>) {
    forall k :: 0 <= k < |xs| ==> f(xs[k]).Ok?
  }

  /** Applies `f` to every element in order and collects the results; the
      first element whose conversion fails aborts the whole list with that
      element's error, as a throwing constructor inside a `push_back` loop does. */
  function MapAll<A, B, E>(xs: seq<A>, f: A -> Result<B, E>): (r: Result<seq<B>, E>)
    ensures r.Ok? <==> AllOk(xs, f)
    ensures r.Ok? ==> |r.value| == |xs| && forall k :: 0 <= k < |xs| ==> f(xs[k]) == Ok(r.value[k])
    ensures r.Err? ==> exists k :: 0 <= k < |xs| && f(xs[k]) == Err(r.error) && forall j :: 0 <= j < k ==> f(xs[j]).Ok?
  {
    if xs == [] then Ok([])
    else
      var y :- f(xs[0]);
      var ys :- MapAll(xs[1..], f);
      assert forall k :: 1 <= k < |xs| ==> xs[k] == xs[1..][k - 1];
      Ok([y] + ys)
  }
}
